=== FILE: README.md ===
# text-ingests selection tree, modelled in Dafny

text-ingests is a terminal program that shows a directory as a tree. The
user moves a cursor over the visible entries, expands and collapses
directories, and marks files and directories for inclusion. The selected
files are then written out as one text digest. Each file is framed by a
`--- relative/path ---` header. While the user works, a status line shows
the selected file and directory counts, their total size and a token count.

This project models the engine behind that screen (`tree.go`):

- building the tree from the filesystem, with the `.git` and ignore-pattern
  filters;
- the three-valued selection state (none, full, partial), pushed down to
  descendants and re-aggregated up to ancestors;
- the visible list and the cursor commands (up, down, expand, collapse,
  space, select-all);
- the statistics walk;
- the digest.

Modules:

- `TreeShape` (tree_shape.dfy): the node value.
  - A node is identified by its address, the sequence of child indices
    from the root. The parent is the address without its last index.
    Ancestors are prefixes; the subtree is every extension.
  - The shape rules the builder establishes.
  - Pre-order as an order on addresses.
- `Ignore` (ignore.dfy): the ignore-pattern check.
- `Build` (build.dfy): the builder. The filesystem is an input value.
  "Listing order" means the order of the entries in that input. `os.ReadDir`
  sorts entries by file name; the model holds for any order it is given.
- `Selection` (selection.dfy): the selection rules.
  - `Aggregate` states the rule, `Reagg` models updateParentSelection and
    `Toggled` models toggleSelection. These are functions on a
    state-by-address map.
  - They come with their frame, idempotence and consistency lemmas.
- `Visibility` (visibility.dfy): flattenVisible and the facts about the
  visible list.
- `Digest` (digest.dfy): collectFiles, the directory count of updateStats,
  and the digest text.
- `Navigator` (navigator.dfy): the `tree` object as a class.
  - Its methods follow the source's loops and recursion.
  - The selection, statistics and digest methods are proved equal to the
    specification functions above. The cursor and expand/collapse methods
    state the new cursor and expanded set directly.
  - The class invariant `Valid` holds after every command. It says that
    every directory with children holds the aggregate of its children, that
    only such a directory is ever partial (a file is none or full), and
    that the visible list and index map match the expanded set.

## Model

| member | source | states |
|---|---|---|
| Build.BuildNode | tree.go:51-115 | The build succeeds exactly when everything reached through kept entries can be stat'ed and listed; otherwise the error names the object whose stat or listing failed (`Build.FailsAt`): the start itself when it cannot be stat'ed or listed, or a failing object reached through a kept entry, always at or below the start. The node carries the given name, path and depth. It is a directory exactly when the object is. It is shaped: files have no children, and each child is one level deeper at `path + [name]`. It mirrors the filtered filesystem at every depth: a directory's children are its kept entries in listing order, each a directory exactly when its entry is, with children that are in turn that entry's kept entries. |
| Build.BuildChildren | tree.go:78-108 | The listing loop. It fails exactly when a kept entry's subtree cannot be built, passing that subtree's error on unchanged, so the error names a failing object reached through a kept entry, and it appends one child per kept entry in listing order, each one level deeper, at its own path, shaped, and mirroring what its entry points at all the way down. |
| Build.MirroredOrigins | tree.go:78-108 | In a built tree every node below the root stands for a listing entry that was not skipped where it was listed, with that entry's name and kind, at the listing directory's path plus the name. With ignore rules respected, this holds at every depth: no node comes from a `.git` directory entry or from an entry whose repository-relative path the patterns exclude. |
| Build.Kept | tree.go:95-101 | The entries that become children, the listing filtered by the two skips in order; never more than the listing. |
| Build.Skipped | tree.go:95-101 | The two skips: the `.git` directory entry (by the listing's is-directory bit) and any entry whose repository-relative path a pattern excludes, both only while ignore rules are respected. Its partners are `Build.KeptMembers` and `Build.KeptRespectsRules`. |
| Build.Healthy | tree.go:51-115 | When the build succeeds: the object can be stat'ed and, for a directory, listed, and so can everything reached through kept entries. It is the success condition of `Build.BuildNode`. |
| Build.FailsAt | tree.go:51-108 | The paths a build can fail at: the object itself when it cannot be stat'ed, or is a directory that cannot be listed; otherwise such a path of some kept entry's target. It is the error condition of `Build.BuildNode`. |
| Build.FailsAtUnhealthy | tree.go:51-108 | A path a build can fail at lies at or below the start, and its existence makes the build unhealthy. |
| Build.Mirrors | tree.go:51-115 | The tree is the filtered filesystem: a directory exactly where the object is one, a file with no children, and a directory's children its kept entries in listing order, each mirroring its entry's target. It is ensured by `Build.BuildNode`, and `Build.MirroredOrigins` reads it back. |
| Build.MarkLast | tree.go:110-112 | Same length; only the last child is marked `isLast`, and the others are unchanged. |
| Build.KeptMembers | tree.go:95-101 | An entry becomes a child iff it is in the listing and is not skipped; at most as many children as entries. |
| Build.KeptRespectsRules | tree.go:95-101 | With ignore rules respected, no child is the `.git` directory and no child's repository-relative path is excluded by any pattern. |
| Build.KeptAllWhenIgnoring | tree.go:95-101 | With ignore rules switched off, every listing entry becomes a child, in order. |
| Ignore.IsIgnored | tree.go:200-208 | True iff some pattern's match result is Exclude. |
| TreeShape.DepthAt | tree.go:63-105 | A node's depth is the root's depth plus the length of its address. |
| TreeShape.PathBelow | tree.go:79-105 | A node's path extends the root's path by one component per level. |
| TreeShape.FileIsLeaf | tree.go:69-71 | A file has no children, wherever it sits. |
| TreeShape.AncestorIsDir | tree.go:69-107 | Every proper ancestor of a node is a directory with at least one child. |
| TreeShape.OrderedDistinct | tree.go:117-126 | A list in pre-order lists each node at most once. |
| Selection.Aggregate | tree.go:647-653 | The state a directory takes from its children: full when the full count equals the number of children, else partial when any child is full or partial, else none. Its meaning over the children is `Selection.AggregateMeaning`. |
| Selection.Reagg | tree.go:626-658 | updateParentSelection as a function: a file or childless directory stops the walk; otherwise the directory takes its aggregate and the walk continues with the parent. Its partners are `Selection.ReaggFrame`, `ReaggAggregates`, `ReaggCongruent`, `ReaggFixed` and `ReaggIdempotent`. |
| Selection.Overwrite | tree.go:615-620 | The downward pass: the same set of nodes, and every node in the subtree of the toggled node takes the new state. |
| Selection.Toggled | tree.go:614-624 | toggleSelection as a function: the downward overwrite, then re-aggregation from the parent. Its partners are `Selection.ToggledEffect`, `ToggledAncestors`, `ToggledConsistent` and `ToggledPartialInner`. |
| Selection.AggregateMeaning | tree.go:637-653 | For a directory with children: full iff every child is full; none iff every child is none; partial iff some child is not none and some child is not full. |
| Selection.AggregateUniform | tree.go:637-653 | When every child has the same state, the directory gets that state. |
| Selection.ReaggFrame | tree.go:626-658 | Re-aggregation changes only the node it starts from and its ancestors, and keeps the set of nodes. |
| Selection.ReaggAggregates | tree.go:626-658 | After re-aggregation from a directory with children, that directory and every ancestor hold the aggregate of their children. |
| Selection.ReaggCongruent | tree.go:626-658 | The result depends only on the states off the ancestor chain; states on the chain are overwritten. |
| Selection.ReaggFixed | tree.go:626-658 | A chain that already holds its aggregates is left unchanged. |
| Selection.ReaggIdempotent | tree.go:626-658 | Re-aggregating twice from the same node is the same as once. |
| Selection.OverwriteFacts | tree.go:614-620 | The downward overwrite sets every node in the subtree to the new state and keeps every other node and the set of nodes. |
| Selection.ToggledEffect | tree.go:614-624 | After a toggle, every node of the subtree has the new state. Nodes that are neither in the subtree nor ancestors keep their state. |
| Selection.ToggledAncestors | tree.go:621-658 | After a toggle, every ancestor of the toggled node holds the aggregate of its children. |
| Selection.ToggledConsistent | tree.go:614-658 | A toggle preserves "every directory with children holds the aggregate of its children". |
| Selection.ToggledRoot | tree.go:614-620 | Toggling the root puts every node of the tree in the new state. |
| Selection.ToggledUniform | tree.go:614-658 | When every node already has state s, toggling any node to s changes nothing. |
| Selection.ReaggPartialInner | tree.go:626-653 | Re-aggregation writes only to directories with children, so it never makes a file or an empty directory partial. |
| Selection.ToggledPartialInner | tree.go:614-658 | A toggle to full or none, the only states space and select-all pass, leaves partial only on directories with children. |
| Selection.Count | tree.go:638-645 | The count of children in a given state is at most the number of children examined. |
| Selection.CountAll | tree.go:638-647 | The count equals the number of children examined iff all of them have the target state. |
| Selection.CountZero | tree.go:638-651 | The count is zero iff none of the examined children has the target state. |
| Visibility.Flatten | tree.go:117-126 | The flattened list is non-empty and starts with the node itself. |
| Visibility.FlattenFrom | tree.go:121-123 | The loop of flattenVisible over the children from a given index, in order. Its partners are `Visibility.FlattenFromMembers` and `Visibility.FlattenFromOrdered`. |
| Visibility.FlattenMembers | tree.go:117-126 | A node appears in the flattened subtree iff it lies in the subtree and every ancestor between the subtree's root and the node is expanded. |
| Visibility.VisibleMembers | tree.go:117-126 | A node is visible iff every proper ancestor, the root included, is expanded. |
| Visibility.FlattenOrdered | tree.go:117-126 | The flattened subtree is in pre-order with children in listing order. |
| Visibility.VisibleOrdered | tree.go:117-126 | The visible list starts at the root, is in pre-order, and has no repeated node. |
| Visibility.VisibleValid | tree.go:117-126 | Every visible entry is a node of the tree. |
| Visibility.ExpandKeepsShown | tree.go:256-258 | Expanding a node hides nothing that was visible. |
| Visibility.CollapseKeepsShown | tree.go:270-282 | Collapsing a node hides only nodes strictly below it: every visible node outside its proper subtree, the collapsed node included, stays visible. |
| Visibility.ParentShown | tree.go:279-282 | The parent of a visible node is visible. |
| Digest.Collect | tree.go:511-521 | collectFiles at one node: a full file is taken, a partial node or a full directory is descended into, anything else adds nothing. Its partners are `Digest.CollectMembers` and `Digest.CollectOrdered`. |
| Digest.CollectFrom | tree.go:516-518 | The loop of collectFiles over the children from a given index, in order. Its partner is `Digest.CollectFromMembers`. |
| Digest.CollectMembers | tree.go:511-521 | A node is collected below a given node iff it is a full file and each node on the way down from the starting node is partial or is a full directory. |
| Digest.CollectOrdered | tree.go:511-521 | The collected files are in pre-order, children in listing order, each once. |
| Digest.CollectedFiles | tree.go:511-521 | From the root: the collected files are exactly the full files reached through nodes that are partial or full directories, in pre-order, each once. |
| Digest.CollectedFilesShaped | tree.go:511-521 | In a built tree, a file is collected iff it is full and none of its ancestors is none. |
| Digest.AncestorsNotNone | tree.go:626-658 | When every directory holds its aggregate, no ancestor of a node that is not none is none. |
| Digest.DigestComplete | tree.go:511-521 | When every directory holds its aggregate, which toggles preserve, a node is collected iff it is a full file. |
| Digest.CollectShape | tree.go:512-581 | At one node, collectFiles and the statistics walk both: skip a none node; descend into a non-none directory, counting it when full; and take a full file. |
| Digest.FullDirs | tree.go:556-567 | The directories the statistics walk counts below a node: none for a none node or a file, otherwise the node itself when full, then its children's counts in order. Its partners are `Digest.FullDirsMembers` and `Digest.FullDirsOrdered`. |
| Digest.FullDirsFrom | tree.go:565-567 | The walk's loop over the children from a given index, in order. |
| Digest.FullDirsMembers | tree.go:556-569 | The statistics walk counts a directory iff it is full and the walk reaches it through non-none directories. |
| Digest.FullDirsOrdered | tree.go:556-569 | The counted directories are in pre-order, each once. |
| Digest.CountedDirs | tree.go:556-569 | In a built tree, a directory is counted iff it is full and none of its ancestors is none; each is counted once. |
| Digest.SelectedFilesCount | tree.go:556-583 | The selected-file count equals the number of full files that have no none ancestor. |
| Digest.SelectedDirsCount | tree.go:556-583 | The selected-directory count equals the number of full directories that have no none ancestor. |
| Digest.RelativeToRoot | tree.go:530-533 | Each header names the file relative to the root: "." for the root itself, otherwise the components below the root's path. |
| Digest.RelPath | tree.go:530-533 | The header path: "." for the base itself, the components below the base for a path under it; see `Digest.RelativeToRoot`. |
| Digest.Record | tree.go:535-537 | One file's part of the digest: a four-character opener, the relative path, a five-character closer with newline, the content and a newline, ten framing characters in all. |
| Digest.DigestOf | tree.go:523-538 | The digest of a file list: one record per readable file, in order, unreadable files skipped. Its partners are `Digest.DigestConcat` and `Digest.DigestAndBodies`. |
| Digest.Bodies | tree.go:575-578 | The text given to the tokenizer: the readable files' contents, in order. Its partner is `Digest.BodiesConcat`. |
| Digest.SizeOf | tree.go:571-574 | The total size: the sum of the sizes of the files whose size can be read. Its partner is `Digest.SizeConcat`. |
| Digest.Tokens | tree.go:585-590 | The token count: the length of the encoder's output, or zero when no encoder is available. |
| Digest.DigestConcat | tree.go:524-538 | Each file's part of the digest depends on that file alone, so the digest of a concatenation is the concatenation of the digests. |
| Digest.BodiesConcat | tree.go:575-578 | The text given to the tokenizer for a concatenation is the concatenation of the texts. |
| Digest.SizeConcat | tree.go:571-574 | The total size of a concatenation is the sum of the sizes. |
| Digest.DigestAndBodies | tree.go:524-578 | The digest is exactly as long as the token text plus the headers and newlines: the same files and contents feed both. |
| Navigator.InitialStates | tree.go:66 | Every node of a freshly built tree starts as none. Its partner is `Navigator.InitialStatesConsistent`. |
| Navigator.InitialStatesConsistent | tree.go:176-186 | A fresh tree has exactly one state per node, every state is none, every directory already holds its aggregate, and nothing is partial. |
| Navigator.ToggleStep | tree.go:616-620 | Toggling one more child of a node extends the finished part of the loop by that child's subtree and re-aggregates the node. |
| Navigator.ToggleFinish | tree.go:614-620 | After the loop, the whole subtree holds the new state and every other node off the ancestor chain is unchanged. |
| Navigator.ToggleClose | tree.go:621-623 | The closing re-aggregation from the parent yields exactly the specified toggle result. |
| Navigator.NewTree | tree.go:151-198 | The tree is built exactly when the builder succeeds; otherwise the builder's error is returned unchanged, naming an object whose stat or listing failed. The root gets the given path, the path's last component as its name and depth 0. The root mirrors the filtered filesystem at every depth (`Build.Mirrors`) and is not marked last. Only the root is expanded, nothing is selected, the counters are zero, the output is empty, the cursor is on the root and the class invariant holds. |
| Navigator.Tree.constructor | tree.go:176-186 | Only the root is expanded, every node is none, the counters are zero and the cursor is on the root. |
| Navigator.Tree.RebuildVisible | tree.go:593-599 | The visible list is the flattened tree, and the index map sends each position to the node shown there. |
| Navigator.Tree.Locate | tree.go:259-264 | When the node is visible, the cursor moves to its first position; otherwise the cursor stays put. |
| Navigator.Tree.MoveUp | tree.go:245-248 | The cursor goes up by one, stopping at the first entry, and stays in range. |
| Navigator.Tree.MoveDown | tree.go:249-252 | The cursor goes down by one, stopping at the last entry, and stays in range. |
| Navigator.Tree.Expand | tree.go:253-265 | A collapsed directory under the cursor is expanded and anything else is left as it was; either way the cursor stays on the same node. |
| Navigator.Tree.Collapse | tree.go:266-290 | An expanded directory under the cursor is collapsed and keeps the cursor. Otherwise, below the root, the parent is collapsed and the cursor moves onto the parent. At the root nothing changes. |
| Navigator.Tree.UpdateParentSelection | tree.go:626-658 | The counting loop and the recursion to the parent give exactly the re-aggregation `Reagg`. |
| Navigator.Tree.ToggleSelection | tree.go:614-624 | Setting the node, recursing into the children (each re-aggregating its ancestors) and re-aggregating from the parent give exactly `Toggled`: overwrite the subtree, then re-aggregate the ancestors bottom-up. |
| Navigator.Tree.CountTokens | tree.go:555-581 | The walk below a node adds: the number of collected files; the number of full directories reached through non-none nodes; the sizes of the collected files; and their readable contents in collection order. |
| Navigator.Tree.CountChildren | tree.go:565-567 | The same, summed over the children in order. |
| Navigator.Tree.UpdateStats | tree.go:547-591 | Counts are recomputed from zero. The token count is the encoder's count for the concatenated readable contents of the collected files, or zero without an encoder. |
| Navigator.Tree.GenerateOutput | tree.go:509-540 | The output is the digest of the collected files in collection order. Each readable file contributes its header, its content and a newline; unreadable files are skipped. |
| Navigator.Tree.Space | tree.go:291-303 | The node under the cursor becomes full when it was none, otherwise none. The toggle propagates as `Toggled`, the statistics are refreshed and the invariant holds. |
| Navigator.Tree.SelectAll | tree.go:304-321 | When some visible node is none, every node of the tree becomes full; otherwise every node becomes none, which also clears a mix of only full and partial. The statistics are refreshed. |

## Left out

- The "g", "c" and "p" commands beyond their first step. Each calls generateOutput (`Navigator.Tree.GenerateOutput`), then quits, copies `output` to the clipboard, or shows it.
- Rendering: View, the styles and formatBytes. The text input, help screen, quit and output-file commands. The window-size message. None of these touch the tree, the selection or the digest.
- The "i" and "enter" commands: they rebuild a whole tree through newTree (`Navigator.NewTree`) and replace the current one.
- Finding the repository root and reading `.gitignore`. These only decide which patterns are passed in and how a path is made relative to the repository root; both are inputs of the build (`Rules.patterns`, `Rules.relative`).
- How a single ignore pattern matches. It is an input function returning NoMatch, Exclude or Include.
- The tokenizer. The cl100k_base encoder is an input function (`Tokenizer`), or absent when it cannot be loaded; only the length of its output is used.
- Filesystem reads. `os.Stat`, `os.ReadDir` and `ioutil.ReadFile` are input values: a `FsObject` for the build, and the `contents` and `sizes` maps for the statistics and the digest. A path absent from a map is a failed read.
- Writing the digest to the output file, and `filepath.Join`/`filepath.Base` details. Paths are sequences of components, so joining and cleaning are implicit.
- The tree's `selected` map. It is created but never used by the commands.
- Pointers. Nodes are immutable values addressed by child-index paths. The fields the program mutates after the build (`state`, `expanded`) are maps and sets keyed by address in the `Tree` class. Aliasing between nodes cannot arise in the source's tree, so the model does not represent it.
- Navigator.Tree.UpdateStats: `totalSize` is an unbounded natural number; the 64-bit sum in the source is not modelled, because file sizes that large would be needed to overflow it.
- Navigator.Tree.CountChildren: the loop over a directory's children inside countTokens is a separate method in the model, so the recursive walk and the loop are verified separately; the order of work is unchanged.
- Ignore.IsIgnored: this is the code's rule, under which any pattern returning Exclude excludes the path. Gitignore's own convention, where the last matching pattern wins and a later negation can re-include a path, is not what the code does, and the model follows the code.
- Digest.RelPath: for a path that is not below the base it joins the whole path. Every collected file is below the root (`TreeShape.PathBelow`), so this branch is never used by the digest. The `..`-producing behaviour of `filepath.Rel` is not modelled.

=== FILE: build.dfy ===
/**
 * The tree builder (tree.go, buildNode). The filesystem is an input value:
 * what `os.Stat` finds at a path, and, for a directory, what `os.ReadDir`
 * lists there (entries in listing order, each with the listing's own
 * is-directory bit). Finding out where the repository root lies and turning a
 * path into the path relative to it are left to the caller, as `relative`.
 */
module Build {
  import opened TreeShape
  import opened Ignore

  /** What `os.Stat` finds at a path. */
  datatype FsObject =
    | Regular
    | Directory(listing: Listing)
    | Unreachable                 // os.Stat fails

  /**
   * What `os.ReadDir` returns for a directory. The entries' order is part of
   * the input: `os.ReadDir` sorts by file name, and the model keeps whatever
   * order it is given.
   */
  datatype Listing =
    | Entries(entries: seq<DirEntry>)
    | Unlistable                  // os.ReadDir fails

  /** One listing entry: its name, the listing's is-directory bit, and what is there. */
  datatype DirEntry = DirEntry(name: string, isDir: bool, target: FsObject)

  /** The failure that aborts a build, naming the path that could not be read. */
  datatype IOError = IOError(path: Path)

  datatype Result<T> = Ok(value: T) | Err(error: IOError)

  /** The ignore rules in force during one build. */
  datatype Rules<!P> = Rules(
    patterns: seq<P>,
    matcher: (P, seq<string>, bool) -> MatchResult,
    relative: Path -> seq<string>)

  /** The name of the version-control metadata directory. */
  const GitDir := ".git"

  /**
   * An entry of the directory at `dir` is left out of the tree: the `.git`
   * directory while ignore rules are respected, and anything the ignore rules
   * exclude (matched on its path relative to the repository root).
   */
  ghost predicate Skipped<P>(e: DirEntry, dir: Path, rules: Rules<P>, ignoreGitignore: bool)
  {
    || (e.isDir && e.name == GitDir && !ignoreGitignore)
    || (!ignoreGitignore && Excluded(rules.patterns, rules.matcher, rules.relative(dir + [e.name]), e.isDir))
  }

  /** The entries that become children, in listing order. */
  ghost function Kept<P>(es: seq<DirEntry>, dir: Path, rules: Rules<P>, ignoreGitignore: bool): (r: seq<DirEntry>)
    ensures |r| <= |es|
    decreases |es|
  {
    if es == [] then []
    else
      var last := es[|es| - 1];
      Kept(es[..|es| - 1], dir, rules, ignoreGitignore)
        + (if Skipped(last, dir, rules, ignoreGitignore) then [] else [last])
  }

  /** Kept is exactly the filter "not skipped", order preserved. */
  lemma {:induction false} KeptMembers<P>(es: seq<DirEntry>, dir: Path, rules: Rules<P>, ignoreGitignore: bool)
    ensures forall e :: e in Kept(es, dir, rules, ignoreGitignore) <==> e in es && !Skipped(e, dir, rules, ignoreGitignore)
    ensures |Kept(es, dir, rules, ignoreGitignore)| <= |es|
    decreases |es|
  {
    if es != [] {
      var init := es[..|es| - 1];
      KeptMembers(init, dir, rules, ignoreGitignore);
      assert es == init + [es[|es| - 1]];
    }
  }

  /** With ignore rules respected, no kept entry is the `.git` directory or an excluded path. */
  lemma KeptRespectsRules<P>(es: seq<DirEntry>, dir: Path, rules: Rules<P>)
    ensures forall e :: e in Kept(es, dir, rules, false) ==>
      !(e.isDir && e.name == GitDir) && !Excluded(rules.patterns, rules.matcher, rules.relative(dir + [e.name]), e.isDir)
  {
    KeptMembers(es, dir, rules, false);
  }

  /** When ignore rules are switched off every entry is kept. */
  lemma {:induction false} KeptAllWhenIgnoring<P>(es: seq<DirEntry>, dir: Path, rules: Rules<P>)
    ensures Kept(es, dir, rules, true) == es
    decreases |es|
  {
    if es != [] {
      KeptAllWhenIgnoring(es[..|es| - 1], dir, rules);
      assert es == es[..|es| - 1] + [es[|es| - 1]];
    }
  }

  /** The build succeeds: everything reached through kept entries can be stat'ed and listed. */
  ghost predicate Healthy<P>(obj: FsObject, path: Path, rules: Rules<P>, ignoreGitignore: bool)
    decreases obj
  {
    match obj
    case Unreachable => false
    case Regular => true
    case Directory(listing) =>
      && listing.Entries?
      && forall i :: 0 <= i < |listing.entries| && !Skipped(listing.entries[i], path, rules, ignoreGitignore) ==>
           Healthy(listing.entries[i].target, path + [listing.entries[i].name], rules, ignoreGitignore)
  }

  /**
   * The build of `obj` at `path` can fail naming `e`: `e` is an object that
   * cannot be stat'ed, or a directory that cannot be listed, reached from
   * `path` through kept entries.
   */
  ghost predicate FailsAt<P>(obj: FsObject, path: Path, rules: Rules<P>, ignoreGitignore: bool, e: Path)
    decreases obj
  {
    match obj
    case Unreachable => e == path
    case Regular => false
    case Directory(listing) =>
      if listing.Unlistable? then e == path
      else exists i :: 0 <= i < |listing.entries| && !Skipped(listing.entries[i], path, rules, ignoreGitignore) &&
             FailsAt(listing.entries[i].target, path + [listing.entries[i].name], rules, ignoreGitignore, e)
  }

  /** A path the build can fail at is an unreadable object: such a build is not healthy. */
  lemma {:induction false} FailsAtUnhealthy<P>(obj: FsObject, path: Path, rules: Rules<P>, ignoreGitignore: bool, e: Path)
    requires FailsAt(obj, path, rules, ignoreGitignore, e)
    ensures !Healthy(obj, path, rules, ignoreGitignore) && IsPrefix(path, e)
    decreases obj
  {
    if obj.Directory? && obj.listing.Entries? {
      var es := obj.listing.entries;
      var i :| 0 <= i < |es| && !Skipped(es[i], path, rules, ignoreGitignore) &&
               FailsAt(es[i].target, path + [es[i].name], rules, ignoreGitignore, e);
      FailsAtUnhealthy(es[i].target, path + [es[i].name], rules, ignoreGitignore, e);
      assert e[..|path|] == e[..|path| + 1][..|path|];
    }
  }

  /** Child `c` was built from entry `e`. */
  predicate BuiltFrom(c: Node, e: DirEntry)
  {
    c.name == e.name && c.isDir == e.target.Directory?
  }

  /** The children were built from the kept entries, one each, in order. */
  ghost predicate ChildrenFrom(children: seq<Node>, kept: seq<DirEntry>)
  {
    |children| == |kept| && forall j :: 0 <= j < |children| ==> BuiltFrom(children[j], kept[j])
  }

  /**
   * The tree `n` is the filtered filesystem below `obj` at `path`: `n` is a
   * directory exactly when `obj` is, and a directory's children are its kept
   * entries, one each, in listing order, each mirroring what its entry points
   * at, all the way down. `isLast`, paths and depths are not part of it.
   */
  ghost predicate Mirrors<P>(n: Node, obj: FsObject, path: Path, rules: Rules<P>, ignoreGitignore: bool)
    decreases obj
  {
    && n.isDir == obj.Directory?
    && if !obj.Directory? then n.children == []
       else
         && obj.listing.Entries?
         && var kept := Kept(obj.listing.entries, path, rules, ignoreGitignore);
            KeptMembers(obj.listing.entries, path, rules, ignoreGitignore);
            && |n.children| == |kept|
            && forall j :: 0 <= j < |kept| ==>
                 && BuiltFrom(n.children[j], kept[j])
                 && (assert kept[j] in obj.listing.entries;
                     Mirrors(n.children[j], kept[j].target, path + [kept[j].name], rules, ignoreGitignore))
  }

  /** Marking a node last does not change what it mirrors. */
  lemma MarkedMirrors<P>(c: Node, obj: FsObject, path: Path, rules: Rules<P>, ignoreGitignore: bool)
    requires Mirrors(c, obj, path, rules, ignoreGitignore)
    ensures Mirrors(c.(isLast := true), obj, path, rules, ignoreGitignore)
  {
  }

  /**
   * The children built so far under the directory at `path` and depth
   * `depth`: one per kept entry, in order, each one level deeper, at its own
   * path below `path`, shaped, not yet marked last, and mirroring its entry.
   */
  ghost predicate Siblings<P>(children: seq<Node>, kept: seq<DirEntry>, path: Path, depth: nat,
                              rules: Rules<P>, ignoreGitignore: bool)
  {
    && ChildrenFrom(children, kept)
    && forall j :: 0 <= j < |children| ==>
         && children[j].depth == depth + 1
         && children[j].path == path + [children[j].name]
         && !children[j].isLast
         && Shaped(children[j])
         && Mirrors(children[j], kept[j].target, path + [kept[j].name], rules, ignoreGitignore)
  }

  lemma SiblingsAppend<P>(children: seq<Node>, kept: seq<DirEntry>, c: Node, e: DirEntry, path: Path, depth: nat,
                          rules: Rules<P>, ignoreGitignore: bool)
    requires Siblings(children, kept, path, depth, rules, ignoreGitignore)
    requires BuiltFrom(c, e) && c.depth == depth + 1 && c.path == path + [c.name] && !c.isLast && Shaped(c)
    requires Mirrors(c, e.target, path + [e.name], rules, ignoreGitignore)
    ensures Siblings(children + [c], kept + [e], path, depth, rules, ignoreGitignore)
  {
  }

  /**
   * Builds the node for `obj` at `path`. It fails, naming a path at or below
   * `path`, exactly when some object reached through kept entries cannot be
   * stat'ed or listed (no partial tree is returned). On success the node is
   * shaped (depth, child paths, `isLast`, childless files), carries the given
   * name, path and depth, and a directory's children are its kept entries in
   * listing order. A freshly built node is never `isLast`: its parent marks
   * the last child once all children are built.
   */
  method BuildNode<P>(obj: FsObject, path: Path, name: string, depth: nat, rules: Rules<P>, ignoreGitignore: bool)
    returns (r: Result<Node>)
    ensures r.Ok? <==> Healthy(obj, path, rules, ignoreGitignore)
    ensures r.Err? ==> IsPrefix(path, r.error.path) && FailsAt(obj, path, rules, ignoreGitignore, r.error.path)
    ensures r.Ok? ==> && r.value.name == name && r.value.path == path && r.value.depth == depth
                      && !r.value.isLast && r.value.isDir == obj.Directory? && Shaped(r.value)
    ensures r.Ok? ==> Mirrors(r.value, obj, path, rules, ignoreGitignore)
    decreases obj, 1
  {
    match obj {
      case Unreachable =>
        return Err(IOError(path));
      case Regular =>
        return Ok(Node(name, path, false, depth, false, []));
      case Directory(listing) =>
        if listing.Unlistable? {
          return Err(IOError(path));
        }
        var children := BuildChildren(obj, path, depth, rules, ignoreGitignore);
        if children.Err? {
          return Err(children.error);
        }
        var cs := MarkLast(children.value);
        MarkedChildren(obj, children.value, path, depth, rules, ignoreGitignore);
        r := Ok(Node(name, path, true, depth, false, cs));
    }
  }

  /** Sets `isLast` on the last child, if there is one. */
  function MarkLast(cs: seq<Node>): (r: seq<Node>)
    ensures |r| == |cs|
    ensures forall j :: 0 <= j < |cs| ==> r[j] == if j == |cs| - 1 then cs[j].(isLast := true) else cs[j]
  {
    if cs == [] then [] else cs[..|cs| - 1] + [cs[|cs| - 1].(isLast := true)]
  }

  /**
   * The loop of buildNode over a directory listing: skips the entries the
   * rules leave out, builds the others one level deeper, and appends them in
   * listing order; the first failure aborts the whole listing.
   */
  method BuildChildren<P>(obj: FsObject, path: Path, depth: nat, rules: Rules<P>, ignoreGitignore: bool)
    returns (r: Result<seq<Node>>)
    requires obj.Directory? && obj.listing.Entries?
    ensures r.Ok? <==> Healthy(obj, path, rules, ignoreGitignore)
    ensures r.Err? ==> IsPrefix(path, r.error.path) && FailsAt(obj, path, rules, ignoreGitignore, r.error.path)
    ensures r.Ok? ==> Siblings(r.value, Kept(obj.listing.entries, path, rules, ignoreGitignore), path, depth, rules, ignoreGitignore)
    decreases obj, 0
  {
    var es := obj.listing.entries;
    var children: seq<Node> := [];
    var i := 0;
    while i < |es|
      invariant 0 <= i <= |es|
      invariant Listed(es, i, children, path, depth, rules, ignoreGitignore)
    {
      var e := es[i];
      var fullPath := path + [e.name];
      if e.isDir && e.name == GitDir && !ignoreGitignore {
        SkipStep(es, i, children, path, depth, rules, ignoreGitignore);
        i := i + 1;
        continue;
      }
      if !ignoreGitignore {
        var ignored := IsIgnored(rules.patterns, rules.matcher, rules.relative(fullPath), e.isDir);
        if ignored {
          SkipStep(es, i, children, path, depth, rules, ignoreGitignore);
          i := i + 1;
          continue;
        }
      }
      assert e in es;
      var child := BuildNode(e.target, fullPath, e.name, depth + 1, rules, ignoreGitignore);
      if child.Err? {
        assert !Healthy(obj, path, rules, ignoreGitignore) by {
          assert !Skipped(es[i], path, rules, ignoreGitignore);
        }
        assert IsPrefix(path, fullPath);
        assert !Skipped(es[i], path, rules, ignoreGitignore) &&
               FailsAt(es[i].target, path + [es[i].name], rules, ignoreGitignore, child.error.path);
        return Err(child.error);
      }
      KeepStep(es, i, children, child.value, path, depth, rules, ignoreGitignore);
      children := children + [child.value];
      i := i + 1;
    }
    ListedAll(obj, children, path, depth, rules, ignoreGitignore);
    return Ok(children);
  }

  /**
   * The state of buildNode's loop after the first `i` entries of `es`: the
   * children built so far stand for the kept entries among them, and every
   * kept entry among them could be built.
   */
  ghost predicate Listed<P>(es: seq<DirEntry>, i: nat, children: seq<Node>, path: Path, depth: nat,
                            rules: Rules<P>, ignoreGitignore: bool)
    requires i <= |es|
  {
    && Siblings(children, Kept(es[..i], path, rules, ignoreGitignore), path, depth, rules, ignoreGitignore)
    && forall j :: 0 <= j < i && !Skipped(es[j], path, rules, ignoreGitignore) ==>
         Healthy(es[j].target, path + [es[j].name], rules, ignoreGitignore)
  }

  lemma SkipStep<P>(es: seq<DirEntry>, i: nat, children: seq<Node>, path: Path, depth: nat,
                    rules: Rules<P>, ignoreGitignore: bool)
    requires i < |es| && Listed(es, i, children, path, depth, rules, ignoreGitignore)
    requires Skipped(es[i], path, rules, ignoreGitignore)
    ensures Listed(es, i + 1, children, path, depth, rules, ignoreGitignore)
  {
    assert es[..i + 1][..i] == es[..i];
  }

  lemma KeepStep<P>(es: seq<DirEntry>, i: nat, children: seq<Node>, c: Node, path: Path, depth: nat,
                    rules: Rules<P>, ignoreGitignore: bool)
    requires i < |es| && Listed(es, i, children, path, depth, rules, ignoreGitignore)
    requires !Skipped(es[i], path, rules, ignoreGitignore)
    requires Healthy(es[i].target, path + [es[i].name], rules, ignoreGitignore)
    requires BuiltFrom(c, es[i]) && c.depth == depth + 1 && c.path == path + [c.name] && !c.isLast && Shaped(c)
    requires Mirrors(c, es[i].target, path + [es[i].name], rules, ignoreGitignore)
    ensures Listed(es, i + 1, children + [c], path, depth, rules, ignoreGitignore)
  {
    assert es[..i + 1][..i] == es[..i];
    SiblingsAppend(children, Kept(es[..i], path, rules, ignoreGitignore), c, es[i], path, depth, rules, ignoreGitignore);
  }

  lemma ListedAll<P>(obj: FsObject, children: seq<Node>, path: Path, depth: nat, rules: Rules<P>, ignoreGitignore: bool)
    requires obj.Directory? && obj.listing.Entries?
    requires Listed(obj.listing.entries, |obj.listing.entries|, children, path, depth, rules, ignoreGitignore)
    ensures Healthy(obj, path, rules, ignoreGitignore)
    ensures Siblings(children, Kept(obj.listing.entries, path, rules, ignoreGitignore), path, depth, rules, ignoreGitignore)
  {
    assert obj.listing.entries[..|obj.listing.entries|] == obj.listing.entries;
  }

  /** The children of a directory, once the last is marked, make the directory mirror its listing. */
  lemma MarkedChildren<P>(obj: FsObject, cs: seq<Node>, path: Path, depth: nat, rules: Rules<P>, ignoreGitignore: bool)
    requires obj.Directory? && obj.listing.Entries?
    requires Siblings(cs, Kept(obj.listing.entries, path, rules, ignoreGitignore), path, depth, rules, ignoreGitignore)
    ensures forall name :: Mirrors(Node(name, path, true, depth, false, MarkLast(cs)), obj, path, rules, ignoreGitignore)
  {
    var kept := Kept(obj.listing.entries, path, rules, ignoreGitignore);
    forall j | 0 <= j < |cs|
      ensures Mirrors(MarkLast(cs)[j], kept[j].target, path + [kept[j].name], rules, ignoreGitignore)
    {
      MarkedMirrors(cs[j], kept[j].target, path + [kept[j].name], rules, ignoreGitignore);
    }
  }

  /** Where a node below the root came from: a listing entry and the path of the directory listing it. */
  datatype Origin = Origin(entry: DirEntry, dir: Path) | Nowhere

  /**
   * The entry that the node at address `b` (below the root) stands for, when
   * the tree was built from `obj` at `path`: follow kept entries, one level
   * per index of `b`.
   */
  ghost function EntryAt<P>(obj: FsObject, path: Path, rules: Rules<P>, ignoreGitignore: bool, b: Addr): Origin
    requires b != []
    decreases obj
  {
    if !obj.Directory? || !obj.listing.Entries? then Nowhere
    else
      var kept := Kept(obj.listing.entries, path, rules, ignoreGitignore);
      if b[0] >= |kept| then Nowhere
      else
        KeptMembers(obj.listing.entries, path, rules, ignoreGitignore);
        var e := kept[b[0]];
        assert e in obj.listing.entries;
        if |b| == 1 then Origin(e, path)
        else EntryAt(e.target, path + [e.name], rules, ignoreGitignore, b[1..])
  }

  /**
   * Every node below the root of a mirrored tree stands for an entry that
   * was not skipped where it was listed, and carries that entry's name and
   * kind; in a shaped tree rooted at `path` its path is the directory's path
   * plus the entry's name. So with ignore rules respected, no node stands for
   * a `.git` directory entry or an excluded path, at any depth.
   */
  lemma {:induction false} MirroredOrigins<P>(n: Node, obj: FsObject, path: Path, rules: Rules<P>, ignoreGitignore: bool, b: Addr)
    requires Mirrors(n, obj, path, rules, ignoreGitignore) && ValidAddr(n, b) && b != []
    ensures EntryAt(obj, path, rules, ignoreGitignore, b).Origin?
    ensures var o := EntryAt(obj, path, rules, ignoreGitignore, b);
              && !Skipped(o.entry, o.dir, rules, ignoreGitignore)
              && BuiltFrom(At(n, b), o.entry)
              && (!ignoreGitignore ==>
                    && !(o.entry.isDir && o.entry.name == GitDir)
                    && !Excluded(rules.patterns, rules.matcher, rules.relative(o.dir + [o.entry.name]), o.entry.isDir))
    ensures Shaped(n) && n.path == path ==>
              EntryAt(obj, path, rules, ignoreGitignore, b).dir + [EntryAt(obj, path, rules, ignoreGitignore, b).entry.name]
                == At(n, b).path
    decreases obj
  {
    var kept := Kept(obj.listing.entries, path, rules, ignoreGitignore);
    KeptMembers(obj.listing.entries, path, rules, ignoreGitignore);
    var e := kept[b[0]];
    var c := n.children[b[0]];
    assert e in kept;
    if |b| > 1 {
      MirroredOrigins(c, e.target, path + [e.name], rules, ignoreGitignore, b[1..]);
    }
  }
}

=== FILE: digest.dfy ===
/**
 * Digest selection and format (tree.go, generateOutput and the counting walk
 * of updateStats). File reads are an input: `contents` maps a path to what
 * `ioutil.ReadFile` returns there, and a path missing from it cannot be read.
 */
module Digest {
  import opened TreeShape
  import opened Selection

  /** What `ioutil.ReadFile` returns, for the paths that can be read. */
  type Contents = map<Path, string>

  /**
   * collectFiles(n) for the node `n` at address `a`: a full file is taken;
   * a partial node, or a full directory, is descended into; anything else
   * contributes nothing.
   */
  function Collect(n: Node, a: Addr, st: States): (r: seq<Addr>)
    decreases n, 1
  {
    var s := Sel(st, a);
    if s == Full && !n.isDir then [a]
    else if s == Partial || (s == Full && n.isDir) then CollectFrom(n, a, 0, st)
    else []
  }

  /** The loop of collectFiles over the children of `n` from the `k`-th on. */
  function CollectFrom(n: Node, a: Addr, k: nat, st: States): seq<Addr>
    requires k <= |n.children|
    decreases n, 0, |n.children| - k
  {
    if k == |n.children| then []
    else Collect(n.children[k], a + [k], st) + CollectFrom(n, a, k + 1, st)
  }

  /** collectFiles descends through the node at `p`. */
  ghost predicate Descends(root: Node, st: States, p: Addr)
  {
    ValidAddr(root, p) && (Sel(st, p) == Partial || (Sel(st, p) == Full && At(root, p).isDir))
  }

  /** `b` is a full file. */
  ghost predicate FullFile(root: Node, st: States, b: Addr)
  {
    ValidAddr(root, b) && Sel(st, b) == Full && !At(root, b).isDir
  }

  lemma {:induction false} CollectMembers(root: Node, a: Addr, st: States, b: Addr)
    requires ValidAddr(root, a)
    ensures b in Collect(At(root, a), a, st) <==>
              && IsPrefix(a, b) && FullFile(root, st, b)
              && forall m :: |a| <= m < |b| ==> Descends(root, st, b[..m])
    decreases At(root, a), 1
  {
    var n := At(root, a);
    var s := Sel(st, a);
    if s == Partial || (s == Full && n.isDir) {
      CollectFromMembers(root, a, 0, st, b);
      if b != a && IsPrefix(a, b) {
        assert |b| > |a|;
      }
    } else if b != a && IsPrefix(a, b) {
      assert b[..|a|] == a;
    }
  }

  lemma {:induction false} CollectFromMembers(root: Node, a: Addr, k: nat, st: States, b: Addr)
    requires ValidAddr(root, a) && k <= |At(root, a).children|
    ensures b in CollectFrom(At(root, a), a, k, st) <==>
              && IsPrefix(a, b) && |b| > |a| && k <= b[|a|] && FullFile(root, st, b)
              && forall m :: |a| + 1 <= m < |b| ==> Descends(root, st, b[..m])
    decreases At(root, a), 0, |At(root, a).children| - k
  {
    var n := At(root, a);
    if k == |n.children| {
      if IsPrefix(a, b) && |b| > |a| && FullFile(root, st, b) {
        StepAddr(root, a, b);
      }
    } else {
      ChildAddr(root, a, k);
      CollectMembers(root, a + [k], st, b);
      CollectFromMembers(root, a, k + 1, st, b);
      if IsPrefix(a + [k], b) {
        assert b[..|a|] == b[..|a| + 1][..|a|];
        assert b[|a|] == (a + [k])[|a|];
      }
      if IsPrefix(a, b) && |b| > |a| && b[|a|] == k {
        assert b[..|a| + 1] == b[..|a|] + [b[|a|]];
      }
    }
  }

  lemma {:induction false} CollectOrdered(root: Node, a: Addr, st: States)
    requires ValidAddr(root, a)
    ensures Ordered(Collect(At(root, a), a, st))
    decreases At(root, a), 1
  {
    var n := At(root, a);
    var s := Sel(st, a);
    if !(s == Full && !n.isDir) && (s == Partial || (s == Full && n.isDir)) {
      CollectFromOrdered(root, a, 0, st);
    }
  }

  lemma {:induction false} CollectFromOrdered(root: Node, a: Addr, k: nat, st: States)
    requires ValidAddr(root, a) && k <= |At(root, a).children|
    ensures Ordered(CollectFrom(At(root, a), a, k, st))
    decreases At(root, a), 0, |At(root, a).children| - k
  {
    var n := At(root, a);
    if k < |n.children| {
      ChildAddr(root, a, k);
      var xs := Collect(n.children[k], a + [k], st);
      var ys := CollectFrom(n, a, k + 1, st);
      CollectOrdered(root, a + [k], st);
      CollectFromOrdered(root, a, k + 1, st);
      forall x, y | x in xs && y in ys
        ensures Before(x, y)
      {
        CollectMembers(root, a + [k], st, x);
        CollectFromMembers(root, a, k + 1, st, y);
        assert y[..|a| + 1] == y[..|a|] + [y[|a|]];
        BranchBefore(a, k, y[|a|], x, y);
      }
      OrderedConcat(xs, ys);
    }
  }

  /**
   * The files collected for the digest are exactly the full files that are
   * reached through nodes collectFiles descends into, listed in pre-order
   * following the children's order, each once.
   */
  lemma CollectedFiles(root: Node, st: States)
    ensures forall b :: b in Collect(root, [], st) <==>
              FullFile(root, st, b) && forall m :: 0 <= m < |b| ==> Descends(root, st, b[..m])
    ensures Ordered(Collect(root, [], st))
  {
    forall b ensures b in Collect(root, [], st) <==>
              FullFile(root, st, b) && forall m :: 0 <= m < |b| ==> Descends(root, st, b[..m])
    {
      CollectMembers(root, [], st, b);
    }
    CollectOrdered(root, [], st);
  }

  /**
   * In a shaped tree "descends" means "not none": a full file is collected
   * iff none of its ancestors is none.
   */
  lemma CollectedFilesShaped(root: Node, st: States, b: Addr)
    requires Shaped(root)
    ensures b in Collect(root, [], st) <==>
              FullFile(root, st, b) && forall m :: 0 <= m < |b| ==> Sel(st, b[..m]) != None
  {
    CollectMembers(root, [], st, b);
    if FullFile(root, st, b) {
      forall m | 0 <= m < |b|
        ensures Descends(root, st, b[..m]) <==> Sel(st, b[..m]) != None
      {
        assert IsPrefix(b[..m], b);
        AncestorIsDir(root, b[..m], b);
      }
    }
  }

  /** When every directory holds its aggregate, a node that is not none has no none ancestor. */
  lemma {:induction false} AncestorsNotNone(root: Node, st: States, b: Addr)
    requires Shaped(root) && Consistent(root, st) && ValidAddr(root, b) && Sel(st, b) != None
    ensures forall m :: 0 <= m < |b| ==> Sel(st, b[..m]) != None
    decreases |b|
  {
    if b != [] {
      var p := Parent(b);
      ParentAddr(root, b);
      ParentInner(root, b);
      var k := |At(root, p).children|;
      var last := b[|b| - 1];
      assert p + [last] == b;
      AggregateMeaning(st, p, k);
      assert Sel(st, p) != None;
      AncestorsNotNone(root, st, p);
      forall m | 0 <= m < |b|
        ensures Sel(st, b[..m]) != None
      {
        if m < |b| - 1 {
          assert b[..m] == p[..m];
        }
      }
    }
  }

  /**
   * Digest completeness: when every directory holds its aggregate, the
   * digest takes every full file and no other node.
   */
  lemma DigestComplete(root: Node, st: States, b: Addr)
    requires Shaped(root) && Consistent(root, st)
    ensures b in Collect(root, [], st) <==> FullFile(root, st, b)
  {
    CollectedFilesShaped(root, st, b);
    if FullFile(root, st, b) {
      AncestorsNotNone(root, st, b);
    }
  }

  /** What collectFiles and the counting walk of updateStats do at one node. */
  lemma CollectShape(root: Node, a: Addr, st: States)
    requires Shaped(root) && ValidAddr(root, a)
    ensures var n := At(root, a);
            && (Sel(st, a) == None ==> Collect(n, a, st) == [] && FullDirs(n, a, st) == [])
            && (Sel(st, a) != None && n.isDir ==>
                  && Collect(n, a, st) == CollectFrom(n, a, 0, st)
                  && FullDirs(n, a, st) == (if Sel(st, a) == Full then [a] else []) + FullDirsFrom(n, a, 0, st))
            && (Sel(st, a) != None && !n.isDir ==>
                  && Collect(n, a, st) == (if Sel(st, a) == Full then [a] else [])
                  && FullDirs(n, a, st) == [])
  {
    var n := At(root, a);
    if !n.isDir {
      FileIsLeaf(root, a);
    }
  }

  /**
   * The directories updateStats counts: full directories reached through
   * directories that are not none.
   */
  function FullDirs(n: Node, a: Addr, st: States): seq<Addr>
    decreases n, 1
  {
    if Sel(st, a) == None || !n.isDir then []
    else (if Sel(st, a) == Full then [a] else []) + FullDirsFrom(n, a, 0, st)
  }

  function FullDirsFrom(n: Node, a: Addr, k: nat, st: States): seq<Addr>
    requires k <= |n.children|
    decreases n, 0, |n.children| - k
  {
    if k == |n.children| then []
    else FullDirs(n.children[k], a + [k], st) + FullDirsFrom(n, a, k + 1, st)
  }

  /** The walk of updateStats goes through the node at `p`. */
  ghost predicate Walks(root: Node, st: States, p: Addr)
  {
    ValidAddr(root, p) && Sel(st, p) != None && At(root, p).isDir
  }

  lemma {:induction false} FullDirsMembers(root: Node, a: Addr, st: States, b: Addr)
    requires ValidAddr(root, a)
    ensures b in FullDirs(At(root, a), a, st) <==>
              && IsPrefix(a, b) && ValidAddr(root, b) && Sel(st, b) == Full && At(root, b).isDir
              && forall m :: |a| <= m < |b| ==> Walks(root, st, b[..m])
    decreases At(root, a), 1
  {
    var n := At(root, a);
    if Sel(st, a) != None && n.isDir {
      FullDirsFromMembers(root, a, 0, st, b);
      if b != a && IsPrefix(a, b) {
        assert |b| > |a|;
      }
    } else if b != a && IsPrefix(a, b) {
      assert b[..|a|] == a;
    }
  }

  lemma {:induction false} FullDirsFromMembers(root: Node, a: Addr, k: nat, st: States, b: Addr)
    requires ValidAddr(root, a) && k <= |At(root, a).children|
    ensures b in FullDirsFrom(At(root, a), a, k, st) <==>
              && IsPrefix(a, b) && |b| > |a| && k <= b[|a|]
              && ValidAddr(root, b) && Sel(st, b) == Full && At(root, b).isDir
              && forall m :: |a| + 1 <= m < |b| ==> Walks(root, st, b[..m])
    decreases At(root, a), 0, |At(root, a).children| - k
  {
    var n := At(root, a);
    if k == |n.children| {
      if IsPrefix(a, b) && |b| > |a| && ValidAddr(root, b) {
        StepAddr(root, a, b);
      }
    } else {
      ChildAddr(root, a, k);
      FullDirsMembers(root, a + [k], st, b);
      FullDirsFromMembers(root, a, k + 1, st, b);
      if IsPrefix(a + [k], b) {
        assert b[..|a|] == b[..|a| + 1][..|a|];
        assert b[|a|] == (a + [k])[|a|];
      }
      if IsPrefix(a, b) && |b| > |a| && b[|a|] == k {
        assert b[..|a| + 1] == b[..|a|] + [b[|a|]];
      }
    }
  }

  lemma {:induction false} FullDirsOrdered(root: Node, a: Addr, st: States)
    requires ValidAddr(root, a)
    ensures Ordered(FullDirs(At(root, a), a, st))
    decreases At(root, a), 1
  {
    var n := At(root, a);
    if Sel(st, a) != None && n.isDir {
      var rest := FullDirsFrom(n, a, 0, st);
      FullDirsFromOrdered(root, a, 0, st);
      if Sel(st, a) == Full {
        forall y | y in rest
          ensures Before(a, y)
        {
          FullDirsFromMembers(root, a, 0, st, y);
          AncestorBefore(a, y);
        }
        OrderedConcat([a], rest);
      } else {
        assert FullDirs(n, a, st) == rest;
      }
    }
  }

  lemma {:induction false} FullDirsFromOrdered(root: Node, a: Addr, k: nat, st: States)
    requires ValidAddr(root, a) && k <= |At(root, a).children|
    ensures Ordered(FullDirsFrom(At(root, a), a, k, st))
    decreases At(root, a), 0, |At(root, a).children| - k
  {
    var n := At(root, a);
    if k < |n.children| {
      ChildAddr(root, a, k);
      var xs := FullDirs(n.children[k], a + [k], st);
      var ys := FullDirsFrom(n, a, k + 1, st);
      FullDirsOrdered(root, a + [k], st);
      FullDirsFromOrdered(root, a, k + 1, st);
      forall x, y | x in xs && y in ys
        ensures Before(x, y)
      {
        FullDirsMembers(root, a + [k], st, x);
        FullDirsFromMembers(root, a, k + 1, st, y);
        assert y[..|a| + 1] == y[..|a|] + [y[|a|]];
        BranchBefore(a, k, y[|a|], x, y);
      }
      OrderedConcat(xs, ys);
    }
  }

  /**
   * The directories updateStats counts are exactly the full directories none
   * of whose ancestors is none, each counted once.
   */
  lemma CountedDirs(root: Node, st: States, b: Addr)
    requires Shaped(root)
    ensures b in FullDirs(root, [], st) <==>
              && ValidAddr(root, b) && Sel(st, b) == Full && At(root, b).isDir
              && forall m :: 0 <= m < |b| ==> Sel(st, b[..m]) != None
    ensures Ordered(FullDirs(root, [], st))
  {
    FullDirsMembers(root, [], st, b);
    FullDirsOrdered(root, [], st);
    if ValidAddr(root, b) {
      forall m | 0 <= m < |b|
        ensures Walks(root, st, b[..m]) <==> Sel(st, b[..m]) != None
      {
        assert IsPrefix(b[..m], b);
        AncestorIsDir(root, b[..m], b);
      }
    }
  }

  /** An ordered list has as many entries as it has distinct members. */
  lemma {:induction false} OrderedCard(s: seq<Addr>)
    requires Ordered(s)
    ensures |(set x | x in s)| == |s|
    decreases |s|
  {
    if s != [] {
      var init, last := s[..|s| - 1], s[|s| - 1];
      assert Ordered(init);
      OrderedCard(init);
      assert (set x | x in s) == (set x | x in init) + {last} by {
        assert s == init + [last];
      }
      assert last !in init by {
        forall i | 0 <= i < |init|
          ensures init[i] != last
        {
          assert Before(s[i], s[|s| - 1]);
          BeforeIrreflexive(last);
        }
      }
    }
  }

  /** The full files none of whose ancestors is none. */
  ghost function SelectedFileSet(root: Node, st: States): set<Addr>
  {
    set b | b in Addrs(root) && FullFile(root, st, b) && forall m :: 0 <= m < |b| ==> Sel(st, b[..m]) != None
  }

  /** The full directories none of whose ancestors is none. */
  ghost function SelectedDirSet(root: Node, st: States): set<Addr>
  {
    set b | b in Addrs(root) && ValidAddr(root, b) && Sel(st, b) == Full && At(root, b).isDir
                && forall m :: 0 <= m < |b| ==> Sel(st, b[..m]) != None
  }

  /** updateStats' file count is the number of full files with no none ancestor. */
  lemma SelectedFilesCount(root: Node, st: States)
    requires Shaped(root)
    ensures |Collect(root, [], st)| == |SelectedFileSet(root, st)|
  {
    var c := Collect(root, [], st);
    forall b
      ensures b in c <==> b in SelectedFileSet(root, st)
    {
      CollectedFilesShaped(root, st, b);
      AddrsValid(root, b);
    }
    assert (set x | x in c) == SelectedFileSet(root, st);
    CollectOrdered(root, [], st);
    OrderedCard(c);
  }

  /** updateStats' directory count is the number of full directories with no none ancestor. */
  lemma SelectedDirsCount(root: Node, st: States)
    requires Shaped(root)
    ensures |FullDirs(root, [], st)| == |SelectedDirSet(root, st)|
  {
    var c := FullDirs(root, [], st);
    forall b
      ensures b in c <==> b in SelectedDirSet(root, st)
    {
      CountedDirs(root, st, b);
      AddrsValid(root, b);
    }
    assert (set x | x in c) == SelectedDirSet(root, st);
    FullDirsOrdered(root, [], st);
    OrderedCard(c);
  }

  /* The digest text. */

  /** Path components joined with the separator. */
  function JoinPath(cs: seq<string>): string
  {
    if cs == [] then "" else if |cs| == 1 then cs[0] else JoinPath(cs[..|cs| - 1]) + "/" + cs[|cs| - 1]
  }

  /**
   * filepath.Rel(base, p) for a path below the base: the components below
   * the base, or "." for the base itself.
   */
  function RelPath(base: Path, p: Path): string
  {
    if IsPrefix(base, p) then (if |p| == |base| then "." else JoinPath(p[|base|..]))
    else JoinPath(p)
  }

  /** The path of the node at `f`; addresses outside the tree have none. */
  function PathAt(root: Node, f: Addr): Path
  {
    if ValidAddr(root, f) then At(root, f).path else []
  }

  /**
   * Every node's header names it relative to the root: "." for the root
   * itself, otherwise the components below the root's path.
   */
  lemma RelativeToRoot(root: Node, f: Addr)
    requires Shaped(root) && ValidAddr(root, f)
    ensures var p := At(root, f).path;
            && IsPrefix(root.path, p)
            && RelPath(root.path, p) == if f == [] then "." else JoinPath(p[|root.path|..])
  {
    PathBelow(root, f);
  }

  /** One file's part of the digest: a header naming it, its content, a newline. */
  function Record(rel: string, content: string): (r: string)
    ensures |r| == |rel| + |content| + 10
    ensures r[4..4 + |rel|] == rel && r[9 + |rel|..9 + |rel| + |content|] == content
  {
    "--- " + rel + " ---\n" + content + "\n"
  }

  /**
   * The digest of the files `fs` (addresses into `root`), in order: a
   * record for each file that can be read; the others are skipped.
   */
  function DigestOf(root: Node, fs: seq<Addr>, contents: Contents, base: Path): string
    decreases |fs|
  {
    if fs == [] then ""
    else
      var f := fs[|fs| - 1];
      var p := PathAt(root, f);
      DigestOf(root, fs[..|fs| - 1], contents, base)
        + (if p in contents then Record(RelPath(base, p), contents[p]) else "")
  }

  /** The text handed to the tokenizer: the readable files' contents, in order. */
  function Bodies(root: Node, fs: seq<Addr>, contents: Contents): string
    decreases |fs|
  {
    if fs == [] then ""
    else
      var f := fs[|fs| - 1];
      var p := PathAt(root, f);
      Bodies(root, fs[..|fs| - 1], contents) + (if p in contents then contents[p] else "")
  }

  /** The sizes `os.Stat` reports, for the paths it succeeds on. */
  function SizeOf(root: Node, fs: seq<Addr>, sizes: map<Path, nat>): nat
    decreases |fs|
  {
    if fs == [] then 0
    else
      var f := fs[|fs| - 1];
      var p := PathAt(root, f);
      SizeOf(root, fs[..|fs| - 1], sizes) + (if p in sizes then sizes[p] else 0)
  }

  /** Each file's record depends on that file alone: the digest of a concatenation is the concatenation of digests. */
  lemma {:induction false} DigestConcat(root: Node, xs: seq<Addr>, ys: seq<Addr>, contents: Contents, base: Path)
    ensures DigestOf(root, xs + ys, contents, base) == DigestOf(root, xs, contents, base) + DigestOf(root, ys, contents, base)
    decreases |ys|
  {
    if ys == [] {
      assert xs + ys == xs;
    } else {
      var init := ys[..|ys| - 1];
      assert (xs + ys)[..|xs + ys| - 1] == xs + init;
      DigestConcat(root, xs, init, contents, base);
    }
  }

  lemma {:induction false} BodiesConcat(root: Node, xs: seq<Addr>, ys: seq<Addr>, contents: Contents)
    ensures Bodies(root, xs + ys, contents) == Bodies(root, xs, contents) + Bodies(root, ys, contents)
    decreases |ys|
  {
    if ys == [] {
      assert xs + ys == xs;
    } else {
      var init := ys[..|ys| - 1];
      assert (xs + ys)[..|xs + ys| - 1] == xs + init;
      BodiesConcat(root, xs, init, contents);
    }
  }

  lemma {:induction false} SizeConcat(root: Node, xs: seq<Addr>, ys: seq<Addr>, sizes: map<Path, nat>)
    ensures SizeOf(root, xs + ys, sizes) == SizeOf(root, xs, sizes) + SizeOf(root, ys, sizes)
    decreases |ys|
  {
    if ys == [] {
      assert xs + ys == xs;
    } else {
      var init := ys[..|ys| - 1];
      assert (xs + ys)[..|xs + ys| - 1] == xs + init;
      SizeConcat(root, xs, init, sizes);
    }
  }

  /**
   * The token text is the digest without its framing: each readable file
   * adds its content to both, and an unreadable file adds nothing to either.
   */
  lemma {:induction false} DigestAndBodies(root: Node, fs: seq<Addr>, contents: Contents, base: Path)
    ensures |DigestOf(root, fs, contents, base)| == |Bodies(root, fs, contents)| + HeaderLength(root, fs, contents, base)
    decreases |fs|
  {
    if fs != [] {
      DigestAndBodies(root, fs[..|fs| - 1], contents, base);
      var p := PathAt(root, fs[|fs| - 1]);
      if p in contents {
        var rel := RelPath(base, p);
        assert |Record(rel, contents[p])| == |rel| + |contents[p]| + 10 by {
          var h: string, t: string, nl: string := "--- ", " ---\n", "\n";
          assert |h| == 4 && |t| == 5 && |nl| == 1;
          assert Record(rel, contents[p]) == h + rel + t + contents[p] + nl;
        }
      }
    }
  }

  /** The characters the digest spends on headers and separators. */
  function HeaderLength(root: Node, fs: seq<Addr>, contents: Contents, base: Path): nat
    decreases |fs|
  {
    if fs == [] then 0
    else
      var f := fs[|fs| - 1];
      var p := PathAt(root, f);
      HeaderLength(root, fs[..|fs| - 1], contents, base)
        + (if p in contents then |RelPath(base, p)| + 10 else 0)
  }

  /** The cl100k_base encoder, or its absence when it cannot be loaded. */
  datatype Tokenizer = Unavailable | Encoder(encode: string -> seq<int>)

  /** The token count shown in the statistics: zero when no encoder is available. */
  function Tokens(tk: Tokenizer, text: string): nat
  {
    match tk
    case Unavailable => 0
    case Encoder(encode) => |encode(text)|
  }
}

=== FILE: ignore.dfy ===
/**
 * The ignore filter (tree.go, isIgnored). The patterns come from the
 * repository's exclude rules and its root ignore file; how a single pattern
 * matches a path is the pattern library's business and is taken here as a
 * function `matcher` supplied by the caller.
 */
module Ignore {

  /** What one pattern says about one path. */
  datatype MatchResult = NoMatch | Exclude | Include

  /**
   * A path is ignored when SOME pattern reports Exclude for it. A later
   * pattern reporting Include does not re-admit it: this is the code's rule,
   * not the usual last-match-wins rule of ignore files.
   */
  ghost predicate Excluded<P>(patterns: seq<P>, matcher: (P, seq<string>, bool) -> MatchResult,
                              components: seq<string>, isDir: bool)
  {
    exists i :: 0 <= i < |patterns| && matcher(patterns[i], components, isDir) == Exclude
  }

  /** Scans the patterns in order and stops at the first one that excludes. */
  method IsIgnored<P>(patterns: seq<P>, matcher: (P, seq<string>, bool) -> MatchResult,
                      components: seq<string>, isDir: bool) returns (ignored: bool)
    ensures ignored <==> Excluded(patterns, matcher, components, isDir)
  {
    var i := 0;
    while i < |patterns|
      invariant 0 <= i <= |patterns|
      invariant forall j :: 0 <= j < i ==> matcher(patterns[j], components, isDir) != Exclude
    {
      if matcher(patterns[i], components, isDir) == Exclude {
        return true;
      }
      i := i + 1;
    }
    return false;
  }
}

=== FILE: navigator.dfy ===
/**
 * The interactive tree (tree.go, type `tree`): the cursor over the visible
 * list, expand/collapse, selection toggles with their propagation, the
 * statistics and the digest. Per-node mutable fields (`state`, `expanded`)
 * are kept by address; filesystem reads are parameters.
 */
module Navigator {
  import opened TreeShape
  import opened Build
  import opened Selection
  import opened Visibility
  import opened Digest

  /**
   * While toggleSelection(a, s) works through the children of `a`: the
   * subtrees of the first `i` children hold `s`, everything else outside the
   * chain from `a` up to the root is as it was in `s0`.
   */
  ghost predicate ToggledUpTo(root: Node, st: States, s0: States, a: Addr, i: nat, s: SelState)
  {
    forall b :: ValidAddr(root, b) && !IsPrefix(b, a) ==>
      Sel(st, b) == if IsPrefix(a, b) && |b| > |a| && b[|a|] < i then s else Sel(s0, b)
  }

  /** Setting `a` itself starts toggleSelection(a, s) with no child done. */
  lemma ToggleStart(root: Node, s0: States, a: Addr, s: SelState)
    requires Domain(root, s0) && ValidAddr(root, a)
    ensures Domain(root, s0[a := s]) && ToggledUpTo(root, s0[a := s], s0, a, 0, s) && Sel(s0[a := s], a) == s
  {
  }

  /** Toggling child `i` of `a` extends the finished part by one child and re-aggregates `a`. */
  lemma ToggleStep(root: Node, st: States, s0: States, a: Addr, i: nat, s: SelState)
    requires Shaped(root) && Domain(root, st) && Inner(root, a) && i < |At(root, a).children|
    requires ValidAddr(root, a + [i])
    requires ToggledUpTo(root, st, s0, a, i, s)
    ensures Domain(root, Toggled(root, st, a + [i], s))
    ensures ToggledUpTo(root, Toggled(root, st, a + [i], s), s0, a, i + 1, s)
    ensures Aggregated(root, Toggled(root, st, a + [i], s), a)
  {
    var c := a + [i];
    assert Parent(c) == a;
    var x := Overwrite(st, c, s);
    var t := Toggled(root, st, c, s);
    assert t == Reagg(root, x, a);
    OverwriteFacts(root, st, c, s);
    ReaggFrame(root, x, a);
    ReaggAggregates(root, x, a);
    assert IsPrefix(a, a);
    forall b | ValidAddr(root, b) && !IsPrefix(b, a)
      ensures Sel(t, b) == if IsPrefix(a, b) && |b| > |a| && b[|a|] < i + 1 then s else Sel(s0, b)
    {
      if IsPrefix(c, b) {
        assert b[..|a|] == b[..|c|][..|a|];
        assert b[|a|] == c[|a|];
      } else if IsPrefix(a, b) && |b| > |a| && b[|a|] == i {
        ChildPrefix(a, b);
      }
    }
  }

  /** When all children are done, the states outside the strict ancestors of `a` are the overwrite. */
  lemma ToggleFinish(root: Node, st: States, s0: States, a: Addr, s: SelState)
    requires Shaped(root) && Domain(root, st) && Domain(root, s0) && ValidAddr(root, a)
    requires ToggledUpTo(root, st, s0, a, |At(root, a).children|, s)
    requires Sel(st, a) == s || (|At(root, a).children| > 0 && Aggregated(root, st, a))
    ensures forall b :: !IsPrefix(b, a) || b == a ==> Sel(st, b) == Sel(Overwrite(s0, a, s), b)
  {
    var k := |At(root, a).children|;
    OverwriteFacts(root, s0, a, s);
    if Sel(st, a) != s {
      forall j | 0 <= j < k
        ensures Sel(st, a + [j]) == s
      {
        ChildAddr(root, a, j);
        assert (a + [j])[|a|] == j;
      }
      AggregateUniform(st, a, k, s);
    }
    forall b | !IsPrefix(b, a) || b == a
      ensures Sel(st, b) == Sel(Overwrite(s0, a, s), b)
    {
      if b != a && ValidAddr(root, b) && IsPrefix(a, b) {
        StepAddr(root, a, b);
      }
    }
  }

  /**
   * Closing step of toggleSelection(a, s): with all children done, the final
   * re-aggregation from the parent (or nothing, at the root) gives Toggled.
   */
  lemma ToggleClose(root: Node, st: States, s0: States, a: Addr, s: SelState)
    requires Shaped(root) && Domain(root, st) && Domain(root, s0) && ValidAddr(root, a)
    requires ToggledUpTo(root, st, s0, a, |At(root, a).children|, s)
    requires Sel(st, a) == s || (|At(root, a).children| > 0 && Aggregated(root, st, a))
    ensures a == [] ==> st == Toggled(root, s0, a, s)
    ensures a != [] ==> ValidAddr(root, Parent(a)) && Reagg(root, st, Parent(a)) == Toggled(root, s0, a, s)
  {
    ToggleFinish(root, st, s0, a, s);
    var o := Overwrite(s0, a, s);
    OverwriteFacts(root, s0, a, s);
    if a != [] {
      ParentAddr(root, a);
      ParentInner(root, a);
      forall b | !IsPrefix(b, Parent(a))
        ensures Sel(st, b) == Sel(o, b)
      {
        PrefixOfParent(b, a);
      }
      ReaggCongruent(root, st, o, Parent(a));
    } else {
      SameStates(root, st, o);
    }
  }

  /**
   * The counters and text of the walk over the children of `n` after the
   * first `i` children: what is still to come, added to them, gives the
   * totals for all children, added to the starting values.
   */
  ghost predicate Tally(root: Node, n: Node, a: Addr, i: nat, st: States, sizes: map<Path, nat>, contents: Contents,
                        files: nat, dirs: nat, size: nat, text: string,
                        files0: nat, dirs0: nat, size0: nat, text0: string)
    requires i <= |n.children|
  {
    && files + |CollectFrom(n, a, i, st)| == files0 + |CollectFrom(n, a, 0, st)|
    && dirs + |FullDirsFrom(n, a, i, st)| == dirs0 + |FullDirsFrom(n, a, 0, st)|
    && size + SizeOf(root, CollectFrom(n, a, i, st), sizes) == size0 + SizeOf(root, CollectFrom(n, a, 0, st), sizes)
    && text + Bodies(root, CollectFrom(n, a, i, st), contents) == text0 + Bodies(root, CollectFrom(n, a, 0, st), contents)
  }

  /** Walking child `i` adds its share and moves the tally on by one child. */
  lemma TallyStep(root: Node, n: Node, a: Addr, i: nat, st: States, sizes: map<Path, nat>, contents: Contents,
                  files: nat, dirs: nat, size: nat, text: string,
                  files0: nat, dirs0: nat, size0: nat, text0: string)
    requires i < |n.children|
    requires Tally(root, n, a, i, st, sizes, contents, files, dirs, size, text, files0, dirs0, size0, text0)
    ensures var here := Collect(n.children[i], a + [i], st);
            Tally(root, n, a, i + 1, st, sizes, contents,
                  files + |here|, dirs + |FullDirs(n.children[i], a + [i], st)|,
                  size + SizeOf(root, here, sizes), text + Bodies(root, here, contents),
                  files0, dirs0, size0, text0)
  {
    var here, rest := Collect(n.children[i], a + [i], st), CollectFrom(n, a, i + 1, st);
    SizeConcat(root, here, rest, sizes);
    BodiesConcat(root, here, rest, contents);
    assert text + (Bodies(root, here, contents) + Bodies(root, rest, contents))
        == (text + Bodies(root, here, contents)) + Bodies(root, rest, contents);
  }

  /** Two state maps of the same tree that agree on every node are equal. */
  lemma SameStates(root: Node, x: States, y: States)
    requires Domain(root, x) && Domain(root, y)
    requires forall b :: Sel(x, b) == Sel(y, b)
    ensures x == y
  {
    forall b | b in x
      ensures x[b] == y[b]
    {
      assert Sel(x, b) == Sel(y, b);
    }
  }

  /** Every node of a freshly built tree starts as none. */
  function InitialStates(root: Node): (r: States)
  {
    map b | b in Addrs(root) :: None
  }

  lemma InitialStatesConsistent(root: Node)
    ensures Domain(root, InitialStates(root)) && AllIn(InitialStates(root), None)
    ensures Consistent(root, InitialStates(root)) && PartialInner(root, InitialStates(root))
  {
    var st := InitialStates(root);
    forall b
      ensures b in st <==> ValidAddr(root, b)
    {
      AddrsValid(root, b);
    }
    forall b: Addr | Inner(root, b)
      ensures Aggregated(root, st, b)
    {
      var k := |At(root, b).children|;
      forall j | 0 <= j < k
        ensures Sel(st, b + [j]) == None
      {
      }
      AggregateUniform(st, b, k, None);
    }
  }

  /** The last path component (filepath.Base). */
  function Base(path: Path): string
  {
    if path == [] then "." else path[|path| - 1]
  }

  class Tree {
    /** The tree's root node; its path is the directory the digest is relative to. */
    const root: Node
    var state: States
    var expanded: set<Addr>
    var visible: seq<Addr>
    var indexToNode: map<int, Addr>
    var cursor: int
    var selectedFiles: nat
    var selectedDirs: nat
    var totalSize: nat
    var totalTokens: nat
    var output: string

    ghost predicate Valid()
      reads this
    {
      && Shaped(root)
      && Domain(root, state)
      && Consistent(root, state)
      && PartialInner(root, state)
      && visible == Flatten(root, [], expanded)
      && (forall b :: b in visible ==> ValidAddr(root, b))
      && indexToNode == (map i | 0 <= i < |visible| :: visible[i])
      && 0 <= cursor < |visible|
    }

    /** A tree over a built root: only the root expanded, nothing selected, cursor on the root. */
    constructor (root: Node)
      requires Shaped(root)
      ensures Valid()
      ensures this.root == root && state == InitialStates(root) && expanded == {[]} && cursor == 0
      ensures selectedFiles == 0 && selectedDirs == 0 && totalSize == 0 && totalTokens == 0 && output == ""
    {
      this.root := root;
      state := InitialStates(root);
      expanded := {[]};
      cursor := 0;
      selectedFiles, selectedDirs, totalSize, totalTokens := 0, 0, 0, 0;
      output := "";
      new;
      InitialStatesConsistent(root);
      RebuildVisible();
    }

    /** rebuildVisible: recompute the visible list and the index-to-node map. */
    method RebuildVisible()
      modifies this`visible, this`indexToNode
      ensures visible == Flatten(root, [], expanded)
      ensures forall b :: b in visible ==> ValidAddr(root, b)
      ensures indexToNode == (map i | 0 <= i < |visible| :: visible[i])
    {
      visible := Flatten(root, [], expanded);
      VisibleValid(root, expanded);
      var m: map<int, Addr> := map[];
      var i := 0;
      while i < |visible|
        invariant 0 <= i <= |visible|
        invariant m == (map j | 0 <= j < i :: visible[j])
      {
        m := m[i := visible[i]];
        i := i + 1;
      }
      indexToNode := m;
    }

    /** The search after expand/collapse: the cursor moves to the first index showing `target`, if any. */
    method Locate(target: Addr)
      modifies this`cursor
      ensures target in visible ==>
                && 0 <= cursor < |visible| && visible[cursor] == target
                && forall j :: 0 <= j < cursor ==> visible[j] != target
      ensures target !in visible ==> cursor == old(cursor)
    {
      var i := 0;
      while i < |visible|
        invariant 0 <= i <= |visible|
        invariant cursor == old(cursor)
        invariant forall j :: 0 <= j < i ==> visible[j] != target
      {
        if visible[i] == target {
          cursor := i;
          return;
        }
        i := i + 1;
      }
    }

    /** "up"/"k": one step towards the top, stopping at the first entry. */
    method MoveUp()
      requires Valid()
      modifies this`cursor
      ensures Valid()
      ensures cursor == if old(cursor) > 0 then old(cursor) - 1 else 0
    {
      if cursor > 0 {
        cursor := cursor - 1;
      }
    }

    /** "down"/"j": one step towards the bottom, stopping at the last entry. */
    method MoveDown()
      requires Valid()
      modifies this`cursor
      ensures Valid()
      ensures cursor == if old(cursor) < |visible| - 1 then old(cursor) + 1 else |visible| - 1
    {
      if cursor < |visible| - 1 {
        cursor := cursor + 1;
      }
    }

    /** "right"/"l": expand a collapsed directory under the cursor; the cursor stays on it. */
    method Expand()
      requires Valid()
      modifies this`expanded, this`visible, this`indexToNode, this`cursor
      ensures Valid()
      ensures var a := old(visible[cursor]);
              expanded == if At(root, a).isDir && a !in old(expanded) then old(expanded) + {a} else old(expanded)
      ensures visible[cursor] == old(visible[cursor])
    {
      var a := indexToNode[cursor];
      var n := At(root, a);
      if n.isDir && a !in expanded {
        ExpandKeepsShown(root, expanded, a, a);
        expanded := expanded + {a};
        RebuildVisible();
        Locate(a);
      }
    }

    /**
     * "left"/"h": collapse an expanded directory under the cursor, keeping the
     * cursor on it; otherwise collapse the parent and move the cursor onto it.
     */
    method Collapse()
      requires Valid()
      modifies this`expanded, this`visible, this`indexToNode, this`cursor
      ensures Valid()
      ensures var a := old(visible[cursor]);
              if At(root, a).isDir && a in old(expanded) then
                expanded == old(expanded) - {a} && visible[cursor] == a
              else if a != [] then
                expanded == old(expanded) - {Parent(a)} && visible[cursor] == Parent(a)
              else
                expanded == old(expanded) && cursor == old(cursor)
    {
      var a := indexToNode[cursor];
      var n := At(root, a);
      if n.isDir && a in expanded {
        CollapseKeepsShown(root, expanded, a, a);
        expanded := expanded - {a};
        RebuildVisible();
        Locate(a);
      } else if a != [] {
        var p := Parent(a);
        ParentShown(root, expanded, a);
        CollapseKeepsShown(root, expanded, p, p);
        expanded := expanded - {p};
        RebuildVisible();
        Locate(p);
      }
    }

    /**
     * updateParentSelection(a): count the children of `a` that are full and
     * partial, set `a` from the counts and continue with the parent.
     */
    method UpdateParentSelection(a: Addr)
      requires ValidAddr(root, a)
      modifies this`state
      ensures state == Reagg(root, old(state), a)
      decreases |a|
    {
      var n := At(root, a);
      if !n.isDir {
        return;
      }
      var numChildren := |n.children|;
      if numChildren == 0 {
        return;
      }
      var fullySelected, partiallySelected := 0, 0;
      var i := 0;
      while i < numChildren
        invariant 0 <= i <= numChildren
        invariant fullySelected == Count(state, a, i, Full)
        invariant partiallySelected == Count(state, a, i, Partial)
      {
        var cs := Sel(state, a + [i]);
        if cs == Full {
          fullySelected := fullySelected + 1;
        } else if cs == Partial {
          partiallySelected := partiallySelected + 1;
        }
        i := i + 1;
      }
      var ns := if fullySelected == numChildren then Full
                else if fullySelected > 0 || partiallySelected > 0 then Partial
                else None;
      state := state[a := ns];
      if a != [] {
        ParentAddr(root, a);
        UpdateParentSelection(Parent(a));
      }
    }

    /**
     * toggleSelection(a, s): set `a` to `s`, toggle each child of a directory
     * (each of which re-aggregates `a` and its ancestors), then re-aggregate
     * from the parent of `a`.
     */
    method ToggleSelection(a: Addr, s: SelState)
      requires Shaped(root) && Domain(root, state) && ValidAddr(root, a)
      modifies this`state
      ensures state == Toggled(root, old(state), a, s)
      decreases At(root, a)
    {
      ghost var s0 := state;
      var n := At(root, a);
      state := state[a := s];
      ToggleStart(root, s0, a, s);
      var i := 0;
      if n.isDir {
        while i < |n.children|
          invariant 0 <= i <= |n.children|
          invariant Domain(root, state)
          invariant ToggledUpTo(root, state, s0, a, i, s)
          invariant i == 0 ==> Sel(state, a) == s
          invariant i > 0 ==> Aggregated(root, state, a)
        {
          ChildAddr(root, a, i);
          ToggleStep(root, state, s0, a, i, s);
          ToggleSelection(a + [i], s);
          i := i + 1;
        }
      } else {
        FileIsLeaf(root, a);
      }
      ToggleClose(root, state, s0, a, s);
      if a != [] {
        ParentAddr(root, a);
        UpdateParentSelection(Parent(a));
      }
    }

    /**
     * countTokens(a), the walk of updateStats below `a`: adds to the counters
     * and returns `acc` followed by the contents of the files it reads.
     */
    method CountTokens(a: Addr, contents: Contents, sizes: map<Path, nat>, acc: string) returns (text: string)
      requires Shaped(root) && ValidAddr(root, a)
      modifies this`selectedFiles, this`selectedDirs, this`totalSize
      ensures selectedFiles == old(selectedFiles) + |Collect(At(root, a), a, state)|
      ensures selectedDirs == old(selectedDirs) + |FullDirs(At(root, a), a, state)|
      ensures totalSize == old(totalSize) + SizeOf(root, Collect(At(root, a), a, state), sizes)
      ensures text == acc + Bodies(root, Collect(At(root, a), a, state), contents)
      decreases At(root, a), 1
    {
      text := acc;
      var n := At(root, a);
      var s := Sel(state, a);
      CollectShape(root, a, state);
      if s == None {
        return;
      }
      if n.isDir {
        if s == Full {
          selectedDirs := selectedDirs + 1;
        }
        text := CountChildren(a, contents, sizes, text);
      } else if s == Full {
        selectedFiles := selectedFiles + 1;
        var p := n.path;
        assert PathAt(root, a) == p;
        assert [a][..0] == [];
        if p in sizes {
          totalSize := totalSize + sizes[p];
        }
        if p in contents {
          text := text + contents[p];
        }
      }
    }

    /** The loop of countTokens over the children of directory `a`. */
    method CountChildren(a: Addr, contents: Contents, sizes: map<Path, nat>, acc: string) returns (text: string)
      requires Shaped(root) && ValidAddr(root, a)
      modifies this`selectedFiles, this`selectedDirs, this`totalSize
      ensures selectedFiles == old(selectedFiles) + |CollectFrom(At(root, a), a, 0, state)|
      ensures selectedDirs == old(selectedDirs) + |FullDirsFrom(At(root, a), a, 0, state)|
      ensures totalSize == old(totalSize) + SizeOf(root, CollectFrom(At(root, a), a, 0, state), sizes)
      ensures text == acc + Bodies(root, CollectFrom(At(root, a), a, 0, state), contents)
      decreases At(root, a), 0
    {
      text := acc;
      var n := At(root, a);
      ghost var f0, d0, z0 := selectedFiles, selectedDirs, totalSize;
      var i := 0;
      while i < |n.children|
        invariant 0 <= i <= |n.children|
        invariant Tally(root, n, a, i, state, sizes, contents, selectedFiles, selectedDirs, totalSize, text, f0, d0, z0, acc)
      {
        ChildAddr(root, a, i);
        TallyStep(root, n, a, i, state, sizes, contents, selectedFiles, selectedDirs, totalSize, text, f0, d0, z0, acc);
        text := CountTokens(a + [i], contents, sizes, text);
        i := i + 1;
      }
    }

    /**
     * updateStats: the selected file and directory counts, the total size and
     * the token count of the selected files' contents, from scratch.
     */
    method UpdateStats(contents: Contents, sizes: map<Path, nat>, tk: Tokenizer)
      requires Shaped(root)
      modifies this`selectedFiles, this`selectedDirs, this`totalSize, this`totalTokens
      ensures selectedFiles == |Collect(root, [], state)|
      ensures selectedDirs == |FullDirs(root, [], state)|
      ensures totalSize == SizeOf(root, Collect(root, [], state), sizes)
      ensures totalTokens == Tokens(tk, Bodies(root, Collect(root, [], state), contents))
    {
      selectedFiles, selectedDirs, totalSize, totalTokens := 0, 0, 0, 0;
      var content := CountTokens([], contents, sizes, "");
      assert content == Bodies(root, Collect(root, [], state), contents);
      match tk {
        case Unavailable =>
          return;
        case Encoder(encode) =>
          totalTokens := |encode(content)|;
      }
    }

    /** generateOutput: the digest of the collected files, in collection order. */
    method GenerateOutput(contents: Contents)
      modifies this`output
      ensures output == DigestOf(root, Collect(root, [], state), contents, root.path)
    {
      var files := Collect(root, [], state);
      var b := "";
      var i := 0;
      while i < |files|
        invariant 0 <= i <= |files|
        invariant b == DigestOf(root, files[..i], contents, root.path)
      {
        assert files[..i + 1][..i] == files[..i];
        var p := PathAt(root, files[i]);
        if p in contents {
          b := b + Record(RelPath(root.path, p), contents[p]);
        }
        i := i + 1;
      }
      assert files[..i] == files;
      output := b;
    }

    /** " ": a node that is none becomes full, anything else becomes none; then the statistics are refreshed. */
    method Space(contents: Contents, sizes: map<Path, nat>, tk: Tokenizer)
      requires Valid()
      modifies this`state, this`selectedFiles, this`selectedDirs, this`totalSize, this`totalTokens
      ensures Valid()
      ensures var a := old(visible[cursor]);
              state == Toggled(root, old(state), a, if Sel(old(state), a) == None then Full else None)
      ensures selectedFiles == |Collect(root, [], state)| && selectedDirs == |FullDirs(root, [], state)|
      ensures totalSize == SizeOf(root, Collect(root, [], state), sizes)
      ensures totalTokens == Tokens(tk, Bodies(root, Collect(root, [], state), contents))
    {
      var a := indexToNode[cursor];
      var newState := Full;
      if Sel(state, a) == Full || Sel(state, a) == Partial {
        newState := None;
      }
      ToggledConsistent(root, state, a, newState);
      ToggledPartialInner(root, state, a, newState);
      ToggledEffect(root, state, a, newState);
      ToggleSelection(a, newState);
      UpdateStats(contents, sizes, tk);
    }

    /**
     * "a": when some visible node is none, every visible node is toggled to
     * full, otherwise to none; the first toggle is the root's, so every node
     * of the tree ends in that state.
     */
    method SelectAll(contents: Contents, sizes: map<Path, nat>, tk: Tokenizer)
      requires Valid()
      modifies this`state, this`selectedFiles, this`selectedDirs, this`totalSize, this`totalTokens
      ensures Valid()
      ensures state.Keys == old(state).Keys
      ensures AllIn(state, if exists i :: 0 <= i < |visible| && Sel(old(state), visible[i]) == None then Full else None)
      ensures selectedFiles == |Collect(root, [], state)| && selectedDirs == |FullDirs(root, [], state)|
      ensures totalSize == SizeOf(root, Collect(root, [], state), sizes)
      ensures totalTokens == Tokens(tk, Bodies(root, Collect(root, [], state), contents))
    {
      var selectAll := false;
      var i := 0;
      while i < |visible|
        invariant 0 <= i <= |visible|
        invariant forall j :: 0 <= j < i ==> Sel(state, visible[j]) != None
      {
        if Sel(state, visible[i]) == None {
          selectAll := true;
          break;
        }
        i := i + 1;
      }
      var newState := Full;
      if !selectAll {
        newState := None;
      }
      ghost var keys := state.Keys;
      var j := 0;
      while j < |visible|
        invariant 0 <= j <= |visible|
        invariant Domain(root, state) && Consistent(root, state) && PartialInner(root, state) && state.Keys == keys
        invariant j > 0 ==> AllIn(state, newState)
      {
        var a := visible[j];
        ghost var before := state;
        ToggledConsistent(root, state, a, newState);
        ToggledPartialInner(root, state, a, newState);
        ToggledEffect(root, state, a, newState);
        if j == 0 {
          ToggledRoot(root, state, newState);
        } else {
          ToggledUniform(root, state, a, newState);
        }
        ToggleSelection(a, newState);
        j := j + 1;
      }
      UpdateStats(contents, sizes, tk);
    }
  }

  /**
   * newTree: build the tree at `path` (failing as the builder fails), expand
   * the root and put the cursor on it.
   */
  method NewTree<P>(obj: FsObject, path: Path, rules: Rules<P>, ignoreGitignore: bool) returns (r: Result<Tree>)
    ensures r.Ok? <==> Healthy(obj, path, rules, ignoreGitignore)
    ensures r.Err? ==> FailsAt(obj, path, rules, ignoreGitignore, r.error.path)
    ensures r.Ok? ==> && fresh(r.value) && r.value.Valid()
                      && r.value.root.path == path && r.value.root.name == Base(path) && r.value.root.depth == 0
                      && Mirrors(r.value.root, obj, path, rules, ignoreGitignore) && !r.value.root.isLast
                      && r.value.selectedFiles == 0 && r.value.selectedDirs == 0
                      && r.value.totalSize == 0 && r.value.totalTokens == 0 && r.value.output == ""
                      && r.value.expanded == {[]} && r.value.cursor == 0 && AllIn(r.value.state, None)
  {
    var built := BuildNode(obj, path, Base(path), 0, rules, ignoreGitignore);
    if built.Err? {
      return Err(built.error);
    }
    var t := new Tree(built.value);
    InitialStatesConsistent(built.value);
    return Ok(t);
  }
}

=== FILE: selection.dfy ===
/**
 * The tri-state selection engine (tree.go, selState, toggleSelection and
 * updateParentSelection), as functions over the per-node state map. The
 * navigator's methods that update the map in place are proved equal to these
 * functions; the lemmas here say what the functions guarantee.
 */
module Selection {
  import opened TreeShape

  /** tree.go, selState: none, full and partial, in that order. */
  datatype SelState = None | Full | Partial

  /** The selection state of every node, by address. */
  type States = map<Addr, SelState>

  /** The states are recorded for exactly the nodes of the tree. */
  ghost predicate Domain(root: Node, st: States)
  {
    forall b :: b in st <==> ValidAddr(root, b)
  }

  /** The state of node `a`; a node starts out as none. */
  function Sel(st: States, a: Addr): SelState
  {
    if a in st then st[a] else None
  }

  /** How many of the first `k` children of `a` are in state `target`. */
  function Count(st: States, a: Addr, k: nat, target: SelState): (c: nat)
    ensures c <= k
  {
    if k == 0 then 0
    else Count(st, a, k - 1, target) + (if Sel(st, a + [k - 1]) == target then 1 else 0)
  }

  /**
   * The state a directory with `k` children takes from them
   * (tree.go, updateParentSelection): full when all children are full,
   * otherwise partial when some child is full or partial, otherwise none.
   */
  function Aggregate(st: States, a: Addr, k: nat): SelState
  {
    var f := Count(st, a, k, Full);
    if f == k then Full
    else if f > 0 || Count(st, a, k, Partial) > 0 then Partial
    else None
  }

  lemma {:induction false} CountAll(st: States, a: Addr, k: nat, t: SelState)
    ensures Count(st, a, k, t) == k <==> forall i :: 0 <= i < k ==> Sel(st, a + [i]) == t
  {
    if k > 0 {
      CountAll(st, a, k - 1, t);
    }
  }

  lemma {:induction false} CountZero(st: States, a: Addr, k: nat, t: SelState)
    ensures Count(st, a, k, t) == 0 <==> forall i :: 0 <= i < k ==> Sel(st, a + [i]) != t
  {
    if k > 0 {
      CountZero(st, a, k - 1, t);
    }
  }

  /** The aggregate rule, stated over the children themselves (both directions). */
  lemma AggregateMeaning(st: States, a: Addr, k: nat)
    requires k > 0
    ensures Aggregate(st, a, k) == Full <==> forall i :: 0 <= i < k ==> Sel(st, a + [i]) == Full
    ensures Aggregate(st, a, k) == None <==> forall i :: 0 <= i < k ==> Sel(st, a + [i]) == None
    ensures Aggregate(st, a, k) == Partial <==>
              (exists i :: 0 <= i < k && Sel(st, a + [i]) != None) &&
              (exists i :: 0 <= i < k && Sel(st, a + [i]) != Full)
  {
    CountAll(st, a, k, Full);
    CountZero(st, a, k, Full);
    CountZero(st, a, k, Partial);
    if Aggregate(st, a, k) == Partial {
      assert !(forall i :: 0 <= i < k ==> Sel(st, a + [i]) == Full);
    }
    if forall i :: 0 <= i < k ==> Sel(st, a + [i]) == None {
      assert Sel(st, a + [0]) != Full;
    }
  }

  /** Children all in one state give the parent that same state. */
  lemma AggregateUniform(st: States, a: Addr, k: nat, s: SelState)
    requires k > 0 && forall i :: 0 <= i < k ==> Sel(st, a + [i]) == s
    ensures Aggregate(st, a, k) == s
  {
    CountAll(st, a, k, s);
    CountZero(st, a, k, Full);
    CountZero(st, a, k, Partial);
    assert Sel(st, a + [0]) == s;
  }

  lemma {:induction false} CountFrame(x: States, y: States, a: Addr, k: nat, t: SelState)
    requires forall i :: 0 <= i < k ==> Sel(x, a + [i]) == Sel(y, a + [i])
    ensures Count(x, a, k, t) == Count(y, a, k, t)
  {
    if k > 0 {
      CountFrame(x, y, a, k - 1, t);
    }
  }

  /** The aggregate reads nothing but the children's states. */
  lemma AggregateFrame(x: States, y: States, a: Addr, k: nat)
    requires forall i :: 0 <= i < k ==> Sel(x, a + [i]) == Sel(y, a + [i])
    ensures Aggregate(x, a, k) == Aggregate(y, a, k)
  {
    CountFrame(x, y, a, k, Full);
    CountFrame(x, y, a, k, Partial);
  }

  /** The downward pass of toggleSelection: `a` and all its descendants take state `s`. */
  function Overwrite(st: States, a: Addr, s: SelState): (r: States)
    ensures r.Keys == st.Keys
    ensures forall b :: b in r ==> r[b] == s || !IsPrefix(a, b)
  {
    map b | b in st :: if IsPrefix(a, b) then s else st[b]
  }

  /**
   * updateParentSelection(a): recompute directory `a` from its children and
   * continue with its parent, up to the root. A file or a childless
   * directory is left as it is and stops the walk.
   */
  ghost function Reagg(root: Node, st: States, a: Addr): States
    requires ValidAddr(root, a)
    decreases |a|
  {
    var n := At(root, a);
    if !n.isDir || |n.children| == 0 then st
    else
      var st1 := st[a := Aggregate(st, a, |n.children|)];
      if a == [] then st1
      else
        ParentAddr(root, a);
        Reagg(root, st1, Parent(a))
  }

  /**
   * toggleSelection(a, s): overwrite the subtree of `a` with `s`, then
   * re-aggregate the ancestors of `a` bottom-up.
   */
  ghost function Toggled(root: Node, st: States, a: Addr, s: SelState): States
    requires ValidAddr(root, a)
  {
    var o := Overwrite(st, a, s);
    if a == [] then o
    else
      ParentAddr(root, a);
      Reagg(root, o, Parent(a))
  }

  /** `a` is a directory with at least one child. */
  ghost predicate Inner(root: Node, a: Addr)
  {
    ValidAddr(root, a) && At(root, a).isDir && |At(root, a).children| > 0
  }

  /** Directory `a` holds the aggregate of its children. */
  ghost predicate Aggregated(root: Node, st: States, a: Addr)
    requires ValidAddr(root, a)
  {
    Sel(st, a) == Aggregate(st, a, |At(root, a).children|)
  }

  /**
   * Every directory with children holds the aggregate of its children.
   * Childless directories and files are unconstrained: an empty directory
   * keeps whatever state it was explicitly given.
   */
  ghost predicate Consistent(root: Node, st: States)
  {
    forall b :: Inner(root, b) ==> Aggregated(root, st, b)
  }

  /** `a` and all its ancestors hold their aggregates. */
  ghost predicate ChainAggregated(root: Node, st: States, a: Addr)
  {
    forall q :: IsPrefix(q, a) && Inner(root, q) ==> Aggregated(root, st, q)
  }

  /* Facts about prefixes used below. */

  lemma PrefixOfChild(p: Addr, b: Addr, i: nat)
    requires IsPrefix(p, b + [i])
    ensures p == b + [i] || IsPrefix(p, b)
  {
    if p != b + [i] {
      assert |p| != |b| + 1 by {
        assert (b + [i])[..|b| + 1] == b + [i];
      }
      assert b[..|p|] == (b + [i])[..|p|];
    }
  }

  lemma PrefixOfParent(q: Addr, a: Addr)
    requires a != []
    ensures IsPrefix(q, Parent(a)) <==> IsPrefix(q, a) && q != a
  {
    if IsPrefix(q, a) && q != a {
      assert |q| < |a|;
      assert Parent(a)[..|q|] == a[..|q|];
    }
    if IsPrefix(q, Parent(a)) {
      assert a[..|q|] == Parent(a)[..|q|];
    }
  }

  lemma PrefixTrans(x: Addr, y: Addr, z: Addr)
    requires IsPrefix(x, y) && IsPrefix(y, z)
    ensures IsPrefix(x, z)
  {
    assert z[..|x|] == z[..|y|][..|x|];
  }

  /* What Reagg changes and what it computes. */

  /** Reagg touches `a` and its ancestors only, and keeps the set of recorded nodes. */
  lemma {:induction false} ReaggFrame(root: Node, x: States, a: Addr)
    requires Domain(root, x) && ValidAddr(root, a)
    ensures Domain(root, Reagg(root, x, a)) && Reagg(root, x, a).Keys == x.Keys
    ensures forall b :: !IsPrefix(b, a) ==> Sel(Reagg(root, x, a), b) == Sel(x, b)
    decreases |a|
  {
    var n := At(root, a);
    if n.isDir && |n.children| > 0 {
      var x1 := x[a := Aggregate(x, a, |n.children|)];
      assert x1.Keys == x.Keys;
      if a != [] {
        ParentAddr(root, a);
        ReaggFrame(root, x1, Parent(a));
        forall b | !IsPrefix(b, a)
          ensures Sel(Reagg(root, x, a), b) == Sel(x, b)
        {
          PrefixOfParent(b, a);
        }
      }
    }
  }

  /** The parent of an inner node's child is inner; the walk never stops early in a shaped tree. */
  lemma ParentInner(root: Node, a: Addr)
    requires Shaped(root) && ValidAddr(root, a) && a != []
    ensures Inner(root, Parent(a))
  {
    assert IsPrefix(Parent(a), a);
    AncestorIsDir(root, Parent(a), a);
  }

  /** After Reagg(a), `a` and every ancestor of `a` hold their aggregates. */
  lemma {:induction false} ReaggAggregates(root: Node, x: States, a: Addr)
    requires Shaped(root) && Domain(root, x) && Inner(root, a)
    ensures ChainAggregated(root, Reagg(root, x, a), a)
    decreases |a|
  {
    var k := |At(root, a).children|;
    var x1 := x[a := Aggregate(x, a, k)];
    var r := Reagg(root, x, a);
    assert x1.Keys == x.Keys;
    // the children of `a` are not touched by the walk above `a`
    forall i | 0 <= i < k
      ensures Sel(r, a + [i]) == Sel(x, a + [i])
    {
      if a != [] {
        ParentAddr(root, a);
        ReaggFrame(root, x1, Parent(a));
        assert !IsPrefix(a + [i], Parent(a));
      }
      assert a + [i] != a;
    }
    AggregateFrame(r, x, a, k);
    if a == [] {
      forall q | IsPrefix(q, a) && Inner(root, q)
        ensures Aggregated(root, r, q)
      {
        assert q == a;
      }
    } else {
      ParentAddr(root, a);
      ParentInner(root, a);
      ReaggFrame(root, x1, Parent(a));
      ReaggAggregates(root, x1, Parent(a));
      assert !IsPrefix(a, Parent(a));
      forall q | IsPrefix(q, a) && Inner(root, q)
        ensures Aggregated(root, r, q)
      {
        PrefixOfParent(q, a);
      }
    }
  }

  /** Reagg(a) reads nothing on the chain from `a` to the root. */
  lemma {:induction false} ReaggCongruent(root: Node, x: States, y: States, a: Addr)
    requires Shaped(root) && Domain(root, x) && Domain(root, y) && Inner(root, a)
    requires forall b :: !IsPrefix(b, a) ==> Sel(x, b) == Sel(y, b)
    ensures Reagg(root, x, a) == Reagg(root, y, a)
    decreases |a|
  {
    var k := |At(root, a).children|;
    forall i | 0 <= i < k
      ensures Sel(x, a + [i]) == Sel(y, a + [i])
    {
      assert !IsPrefix(a + [i], a);
    }
    AggregateFrame(x, y, a, k);
    var v := Aggregate(x, a, k);
    var x1, y1 := x[a := v], y[a := v];
    if a == [] {
      forall b | b in x1
        ensures b in y1 && x1[b] == y1[b]
      {
        if b != a { assert !IsPrefix(b, a); assert Sel(x, b) == Sel(y, b); }
      }
      assert x1 == y1;
    } else {
      ParentAddr(root, a);
      ParentInner(root, a);
      forall b | !IsPrefix(b, Parent(a))
        ensures Sel(x1, b) == Sel(y1, b)
      {
        PrefixOfParent(b, a);
      }
      ReaggCongruent(root, x1, y1, Parent(a));
    }
  }

  /** A chain that already holds its aggregates is left unchanged by Reagg. */
  lemma {:induction false} ReaggFixed(root: Node, x: States, a: Addr)
    requires Shaped(root) && Domain(root, x) && Inner(root, a)
    requires ChainAggregated(root, x, a)
    ensures Reagg(root, x, a) == x
    decreases |a|
  {
    assert IsPrefix(a, a);
    var v := Aggregate(x, a, |At(root, a).children|);
    assert x[a := v] == x;
    if a != [] {
      ParentAddr(root, a);
      ParentInner(root, a);
      forall q | IsPrefix(q, Parent(a)) && Inner(root, q)
        ensures Aggregated(root, x, q)
      {
        PrefixOfParent(q, a);
      }
      ReaggFixed(root, x, Parent(a));
    }
  }

  /** Re-aggregating twice is the same as re-aggregating once. */
  lemma ReaggIdempotent(root: Node, x: States, a: Addr)
    requires Shaped(root) && Domain(root, x) && Inner(root, a)
    ensures Reagg(root, Reagg(root, x, a), a) == Reagg(root, x, a)
  {
    ReaggFrame(root, x, a);
    ReaggAggregates(root, x, a);
    ReaggFixed(root, Reagg(root, x, a), a);
  }

  /* What a toggle does. */

  lemma OverwriteFacts(root: Node, st: States, a: Addr, s: SelState)
    requires Domain(root, st)
    ensures Domain(root, Overwrite(st, a, s)) && Overwrite(st, a, s).Keys == st.Keys
    ensures forall b :: Sel(Overwrite(st, a, s), b) == if IsPrefix(a, b) && b in st then s else Sel(st, b)
  {
  }

  /**
   * toggleSelection(a, s) sets `a` and every descendant of `a` to `s`,
   * changes nothing outside the subtree of `a` and the ancestors of `a`,
   * and keeps a state for exactly the nodes of the tree.
   */
  lemma ToggledEffect(root: Node, st: States, a: Addr, s: SelState)
    requires Domain(root, st) && ValidAddr(root, a)
    ensures Domain(root, Toggled(root, st, a, s))
    ensures forall b :: ValidAddr(root, b) && IsPrefix(a, b) ==> Sel(Toggled(root, st, a, s), b) == s
    ensures forall b :: !IsPrefix(a, b) && !IsPrefix(b, a) ==> Sel(Toggled(root, st, a, s), b) == Sel(st, b)
  {
    var o := Overwrite(st, a, s);
    OverwriteFacts(root, st, a, s);
    if a != [] {
      ParentAddr(root, a);
      ReaggFrame(root, o, Parent(a));
      forall b | IsPrefix(a, b)
        ensures !IsPrefix(b, Parent(a))
      {
        PrefixOfParent(b, a);
      }
      forall b | !IsPrefix(b, a)
        ensures !IsPrefix(b, Parent(a))
      {
        PrefixOfParent(b, a);
      }
    }
  }

  /** After toggleSelection(a, s) every proper ancestor of `a` holds its aggregate. */
  lemma ToggledAncestors(root: Node, st: States, a: Addr, s: SelState)
    requires Shaped(root) && Domain(root, st) && ValidAddr(root, a) && a != []
    ensures ChainAggregated(root, Toggled(root, st, a, s), Parent(a))
  {
    OverwriteFacts(root, st, a, s);
    ParentAddr(root, a);
    ParentInner(root, a);
    ReaggAggregates(root, Overwrite(st, a, s), Parent(a));
  }

  /**
   * The aggregate rule survives any toggle: if every directory with children
   * held the aggregate of its children before, it does after.
   */
  lemma ToggledConsistent(root: Node, st: States, a: Addr, s: SelState)
    requires Shaped(root) && Domain(root, st) && ValidAddr(root, a)
    requires Consistent(root, st)
    ensures Consistent(root, Toggled(root, st, a, s))
  {
    var t := Toggled(root, st, a, s);
    ToggledEffect(root, st, a, s);
    if a != [] {
      ToggledAncestors(root, st, a, s);
    }
    forall b: Addr | Inner(root, b)
      ensures Aggregated(root, t, b)
    {
      var k := |At(root, b).children|;
      forall i | 0 <= i < k
        ensures ValidAddr(root, b + [i])
      {
        ChildAddr(root, b, i);
      }
      if a != [] && IsPrefix(b, Parent(a)) {
        // an ancestor of `a`: recomputed on the way up
      } else if IsPrefix(a, b) {
        // inside the overwritten subtree: the node and its children are all `s`
        forall i | 0 <= i < k
          ensures Sel(t, b + [i]) == s
        {
          PrefixTrans(a, b, b + [i]);
        }
        AggregateUniform(t, b, k, s);
      } else {
        // elsewhere: neither the node nor its children changed
        if a != [] { PrefixOfParent(b, a); }
        assert !IsPrefix(b, a);
        forall i | 0 <= i < k
          ensures Sel(t, b + [i]) == Sel(st, b + [i])
        {
          if IsPrefix(a, b + [i]) {
            PrefixOfChild(a, b, i);
          }
          if IsPrefix(b + [i], a) {
            PrefixTrans(b, b + [i], a);
          }
        }
        AggregateFrame(t, st, b, k);
      }
    }
  }

  /** Every node in the same state: nothing for a toggle to that state to change. */
  ghost predicate AllIn(st: States, s: SelState)
  {
    forall b :: b in st ==> st[b] == s
  }

  /** Toggling the root reaches every node. */
  lemma ToggledRoot(root: Node, st: States, s: SelState)
    ensures AllIn(Toggled(root, st, [], s), s) && Toggled(root, st, [], s).Keys == st.Keys
  {
    var none: Addr := [];
    forall b: Addr ensures IsPrefix(none, b) { }
  }

  /** Once every node is in state `s`, toggling any node to `s` changes nothing. */
  lemma ToggledUniform(root: Node, st: States, a: Addr, s: SelState)
    requires Shaped(root) && Domain(root, st) && ValidAddr(root, a) && AllIn(st, s)
    ensures Toggled(root, st, a, s) == st
  {
    var o := Overwrite(st, a, s);
    assert o == st;
    if a != [] {
      ParentAddr(root, a);
      ParentInner(root, a);
      forall q: Addr | Inner(root, q)
        ensures Aggregated(root, st, q)
      {
        var k := |At(root, q).children|;
        forall i | 0 <= i < k
          ensures Sel(st, q + [i]) == s
        {
          ChildAddr(root, q, i);
        }
        AggregateUniform(st, q, k, s);
        assert q in st;
      }
      ReaggFixed(root, st, Parent(a));
    }
  }

  /**
   * Only a directory with children is ever partial: a file or an empty
   * directory is none or full.
   */
  ghost predicate PartialInner(root: Node, st: States)
  {
    forall b :: Sel(st, b) == Partial ==> Inner(root, b)
  }

  /** Re-aggregation writes only to directories with children, so it keeps PartialInner. */
  lemma {:induction false} ReaggPartialInner(root: Node, st: States, a: Addr)
    requires ValidAddr(root, a) && PartialInner(root, st)
    ensures PartialInner(root, Reagg(root, st, a))
    decreases |a|
  {
    var n := At(root, a);
    if n.isDir && |n.children| > 0 {
      var st1 := st[a := Aggregate(st, a, |n.children|)];
      assert PartialInner(root, st1) by {
        forall b | Sel(st1, b) == Partial
          ensures Inner(root, b)
        {
          if b != a {
            assert Sel(st, b) == Partial;
          }
        }
      }
      if a != [] {
        ParentAddr(root, a);
        ReaggPartialInner(root, st1, Parent(a));
      }
    }
  }

  /**
   * Toggling to full or none (the only states space and "a" ever give)
   * never makes a file or an empty directory partial.
   */
  lemma ToggledPartialInner(root: Node, st: States, a: Addr, s: SelState)
    requires ValidAddr(root, a) && PartialInner(root, st) && s != Partial
    ensures PartialInner(root, Toggled(root, st, a, s))
  {
    var o := Overwrite(st, a, s);
    assert PartialInner(root, o) by {
      forall b | Sel(o, b) == Partial
        ensures Inner(root, b)
      {
        assert Sel(st, b) == Partial;
      }
    }
    if a != [] {
      ParentAddr(root, a);
      ReaggPartialInner(root, o, Parent(a));
    }
  }
}

=== FILE: tree_shape.dfy ===
/**
 * The shape of the in-memory file tree (tree.go, type `node`).
 *
 * A node is an immutable value; the fields that the program mutates after the
 * tree is built (`state`, `expanded`) are kept by the navigator per node
 * address (see navigator.dfy). A node is identified by its address: the
 * sequence of child indices leading to it from the root. The parent of a node
 * is the address without its last index, its ancestors are the prefixes of its
 * address and its subtree holds the addresses that extend it.
 */
module TreeShape {

  /** A filesystem path as its components, joined with the path separator. */
  type Path = seq<string>

  /** The position of a node: child indices from the root. */
  type Addr = seq<nat>

  datatype Node = Node(
    name: string,
    path: Path,
    isDir: bool,
    depth: nat,
    isLast: bool,
    children: seq<Node>)

  /** `a` names a node of the tree rooted at `t`. */
  predicate ValidAddr(t: Node, a: Addr)
    decreases |a|
  {
    a == [] || (a[0] < |t.children| && ValidAddr(t.children[a[0]], a[1..]))
  }

  /** The node at address `a`. */
  function At(t: Node, a: Addr): Node
    requires ValidAddr(t, a)
    decreases |a|
  {
    if a == [] then t else At(t.children[a[0]], a[1..])
  }

  function Parent(a: Addr): Addr
    requires a != []
  {
    a[..|a| - 1]
  }

  /** `p` is `a` or an ancestor of `a`; equivalently `a` lies in the subtree of `p`. */
  predicate IsPrefix<T(==)>(p: seq<T>, a: seq<T>)
  {
    |p| <= |a| && a[..|p|] == p
  }

  /** Walking `p` and then `q` is walking `p + q`. */
  lemma {:induction false} AtConcat(t: Node, p: Addr, q: Addr)
    ensures ValidAddr(t, p + q) <==> ValidAddr(t, p) && ValidAddr(At(t, p), q)
    ensures ValidAddr(t, p + q) ==> At(t, p + q) == At(At(t, p), q)
    decreases |p|
  {
    if p == [] {
      assert p + q == q;
    } else {
      assert (p + q)[0] == p[0] && (p + q)[1..] == p[1..] + q;
      if p[0] < |t.children| {
        AtConcat(t.children[p[0]], p[1..], q);
      }
    }
  }

  lemma ChildAddr(t: Node, a: Addr, i: nat)
    requires ValidAddr(t, a) && i < |At(t, a).children|
    ensures ValidAddr(t, a + [i]) && At(t, a + [i]) == At(t, a).children[i]
  {
    AtConcat(t, a, [i]);
    assert [i][1..] == [];
  }

  lemma ParentAddr(t: Node, a: Addr)
    requires ValidAddr(t, a) && a != []
    ensures ValidAddr(t, Parent(a))
    ensures a[|a| - 1] < |At(t, Parent(a)).children|
    ensures At(t, a) == At(t, Parent(a)).children[a[|a| - 1]]
  {
    assert a == Parent(a) + [a[|a| - 1]];
    AtConcat(t, Parent(a), [a[|a| - 1]]);
    assert [a[|a| - 1]][1..] == [];
  }

  /** Every prefix of a valid address is valid: ancestors exist. */
  lemma PrefixAddr(t: Node, a: Addr, k: nat)
    requires ValidAddr(t, a) && k <= |a|
    ensures ValidAddr(t, a[..k])
  {
    assert a == a[..k] + a[k..];
    AtConcat(t, a[..k], a[k..]);
  }

  /** The step below `p` on the way to a valid `a` is a child of `p`. */
  lemma StepAddr(t: Node, p: Addr, a: Addr)
    requires ValidAddr(t, a) && IsPrefix(p, a) && |p| < |a|
    ensures ValidAddr(t, p) && a[|p|] < |At(t, p).children|
    ensures a[..|p| + 1] == p + [a[|p|]]
  {
    PrefixAddr(t, a, |p| + 1);
    assert a[..|p| + 1] == p + [a[|p|]];
    ParentAddr(t, a[..|p| + 1]);
    assert Parent(a[..|p| + 1]) == p;
  }

  /**
   * The shape rules the builder establishes (tree.go, buildNode): files have
   * no children; every child is one level deeper than its parent and its path
   * is the parent's path joined with its name; among siblings exactly the last
   * one is marked `isLast`.
   */
  predicate Shaped(n: Node)
    decreases n
  {
    && (!n.isDir ==> n.children == [])
    && forall i :: 0 <= i < |n.children| ==>
         && n.children[i].depth == n.depth + 1
         && n.children[i].path == n.path + [n.children[i].name]
         && (n.children[i].isLast <==> i == |n.children| - 1)
         && Shaped(n.children[i])
  }

  lemma {:induction false} ShapedAt(t: Node, a: Addr)
    requires Shaped(t) && ValidAddr(t, a)
    ensures Shaped(At(t, a))
    decreases |a|
  {
    if a != [] {
      ShapedAt(t.children[a[0]], a[1..]);
    }
  }

  /** A file never has children, wherever it sits in a shaped tree. */
  lemma FileIsLeaf(t: Node, a: Addr)
    requires Shaped(t) && ValidAddr(t, a) && !At(t, a).isDir
    ensures At(t, a).children == []
  {
    ShapedAt(t, a);
  }

  /** A node that has a child is a directory. */
  lemma AncestorIsDir(t: Node, p: Addr, a: Addr)
    requires Shaped(t) && ValidAddr(t, a) && IsPrefix(p, a) && |p| < |a|
    ensures ValidAddr(t, p) && At(t, p).isDir && |At(t, p).children| > 0
  {
    StepAddr(t, p, a);
    ShapedAt(t, p);
  }

  /** Depth equals the length of the address below the root. */
  lemma {:induction false} DepthAt(t: Node, a: Addr)
    requires Shaped(t) && ValidAddr(t, a)
    ensures At(t, a).depth == t.depth + |a|
    decreases |a|
  {
    if a != [] {
      DepthAt(t.children[a[0]], a[1..]);
    }
  }

  /** A node's path extends the root's path by one component per level. */
  lemma {:induction false} PathBelow(t: Node, a: Addr)
    requires Shaped(t) && ValidAddr(t, a)
    ensures IsPrefix(t.path, At(t, a).path) && |At(t, a).path| == |t.path| + |a|
    decreases |a|
  {
    if a != [] {
      var c := t.children[a[0]];
      PathBelow(c, a[1..]);
      assert At(t, a).path[..|c.path|] == c.path;
      assert c.path[..|t.path|] == t.path;
    }
  }

  /** The set of all node addresses of the tree. */
  function Addrs(t: Node): (r: set<Addr>)
    decreases t
  {
    {[]} + (set i, b | 0 <= i < |t.children| && b in Addrs(t.children[i]) :: [i] + b)
  }

  lemma {:induction false} AddrsValid(t: Node, a: Addr)
    ensures a in Addrs(t) <==> ValidAddr(t, a)
    decreases |a|
  {
    if a != [] {
      var i, b := a[0], a[1..];
      assert a == [i] + b;
      if i < |t.children| {
        AddrsValid(t.children[i], b);
        if ValidAddr(t, a) {
          assert b in Addrs(t.children[i]);
        }
      }
      if a in Addrs(t) {
        var i', b' :| 0 <= i' < |t.children| && b' in Addrs(t.children[i']) && a == [i'] + b';
        assert i' == i && b' == b;
        AddrsValid(t.children[i], b);
      }
    }
  }

  /**
   * Pre-order (depth-first, children in listing order) as an order on
   * addresses: an ancestor comes before its descendants, and a subtree
   * comes before the subtrees of later siblings.
   */
  predicate Before(x: Addr, y: Addr)
    decreases |x|
  {
    if x == [] then y != []
    else y != [] && (x[0] < y[0] || (x[0] == y[0] && Before(x[1..], y[1..])))
  }

  predicate Ordered(s: seq<Addr>)
  {
    forall i, j :: 0 <= i < j < |s| ==> Before(s[i], s[j])
  }

  lemma {:induction false} BeforeIrreflexive(x: Addr)
    ensures !Before(x, x)
    decreases |x|
  {
    if x != [] {
      BeforeIrreflexive(x[1..]);
    }
  }

  /** An ordered sequence lists every address at most once. */
  lemma OrderedDistinct(s: seq<Addr>)
    requires Ordered(s)
    ensures forall i, j :: 0 <= i < |s| && 0 <= j < |s| && i != j ==> s[i] != s[j]
  {
    forall i, j | 0 <= i < |s| && 0 <= j < |s| && i != j
      ensures s[i] != s[j]
    {
      if i < j { BeforeIrreflexive(s[i]); } else { BeforeIrreflexive(s[j]); }
    }
  }

  lemma {:induction false} AncestorBefore(p: Addr, y: Addr)
    requires IsPrefix(p, y) && |p| < |y|
    ensures Before(p, y)
    decreases |p|
  {
    if p != [] {
      assert y[0] == p[0];
      assert y[1..][..|p| - 1] == p[1..];
      AncestorBefore(p[1..], y[1..]);
    }
  }

  lemma {:induction false} BranchBefore(p: Addr, i: nat, j: nat, x: Addr, y: Addr)
    requires i < j && IsPrefix(p + [i], x) && IsPrefix(p + [j], y)
    ensures Before(x, y)
    decreases |p|
  {
    if p == [] {
      assert x[0] == (p + [i])[0] == i;
      assert y[0] == (p + [j])[0] == j;
    } else {
      assert x[0] == p[0] && y[0] == p[0];
      assert x[1..][..|p|] == p[1..] + [i];
      assert y[1..][..|p|] == p[1..] + [j];
      BranchBefore(p[1..], i, j, x[1..], y[1..]);
    }
  }

  lemma OrderedConcat(xs: seq<Addr>, ys: seq<Addr>)
    requires Ordered(xs) && Ordered(ys)
    requires forall x, y :: x in xs && y in ys ==> Before(x, y)
    ensures Ordered(xs + ys)
  {
    var s := xs + ys;
    forall i, j | 0 <= i < j < |s|
      ensures Before(s[i], s[j])
    {
      if j < |xs| {
        assert s[i] == xs[i] && s[j] == xs[j];
      } else if i >= |xs| {
        assert s[i] == ys[i - |xs|] && s[j] == ys[j - |xs|];
      } else {
        assert s[i] in xs && s[j] in ys;
      }
    }
  }
}

=== FILE: visibility.dfy ===
/**
 * The visible list (tree.go, flattenVisible): the nodes a cursor can move
 * over, in pre-order, descending only into expanded nodes.
 */
module Visibility {
  import opened TreeShape

  /** flattenVisible(n), for the node `n` that sits at address `a`. */
  function Flatten(n: Node, a: Addr, expanded: set<Addr>): (r: seq<Addr>)
    ensures |r| > 0 && r[0] == a
    decreases n, 1
  {
    [a] + (if a in expanded then FlattenFrom(n, a, 0, expanded) else [])
  }

  /** The loop of flattenVisible over the children of `n` from the `k`-th on. */
  function FlattenFrom(n: Node, a: Addr, k: nat, expanded: set<Addr>): seq<Addr>
    requires k <= |n.children|
    decreases n, 0, |n.children| - k
  {
    if k == |n.children| then []
    else Flatten(n.children[k], a + [k], expanded) + FlattenFrom(n, a, k + 1, expanded)
  }

  /** Every proper ancestor of `b` whose address has length `from` or more is expanded. */
  ghost predicate ExpandedFrom(b: Addr, from: nat, expanded: set<Addr>)
  {
    forall m :: from <= m < |b| ==> b[..m] in expanded
  }

  /**
   * A node is visible iff all of its proper ancestors, the root included,
   * are expanded.
   */
  ghost predicate Shown(root: Node, b: Addr, expanded: set<Addr>)
  {
    ValidAddr(root, b) && ExpandedFrom(b, 0, expanded)
  }

  lemma ChildPrefix(a: Addr, b: Addr)
    requires IsPrefix(a, b) && |b| > |a|
    ensures IsPrefix(a + [b[|a|]], b)
  {
    assert b[..|a| + 1] == b[..|a|] + [b[|a|]];
  }

  /** Membership in the flattened subtree of the node at `a`. */
  lemma {:induction false} FlattenMembers(root: Node, a: Addr, expanded: set<Addr>, b: Addr)
    requires ValidAddr(root, a)
    ensures b in Flatten(At(root, a), a, expanded) <==>
              IsPrefix(a, b) && ValidAddr(root, b) && ExpandedFrom(b, |a|, expanded)
    decreases At(root, a), 1
  {
    var n := At(root, a);
    if b != a && a in expanded {
      FlattenFromMembers(root, a, 0, expanded, b);
      if IsPrefix(a, b) && ValidAddr(root, b) && ExpandedFrom(b, |a|, expanded) {
        assert |b| > |a|;
      }
    }
  }

  /** Membership in the flattened subtrees of the children of `a` from the `k`-th on. */
  lemma {:induction false} FlattenFromMembers(root: Node, a: Addr, k: nat, expanded: set<Addr>, b: Addr)
    requires ValidAddr(root, a) && k <= |At(root, a).children|
    ensures b in FlattenFrom(At(root, a), a, k, expanded) <==>
              && IsPrefix(a, b) && |b| > |a| && k <= b[|a|]
              && ValidAddr(root, b) && ExpandedFrom(b, |a| + 1, expanded)
    decreases At(root, a), 0, |At(root, a).children| - k
  {
    var n := At(root, a);
    var rhs := IsPrefix(a, b) && |b| > |a| && k <= b[|a|] && ValidAddr(root, b) && ExpandedFrom(b, |a| + 1, expanded);
    if k == |n.children| {
      if rhs {
        StepAddr(root, a, b);
      }
    } else {
      ChildAddr(root, a, k);
      FlattenMembers(root, a + [k], expanded, b);
      FlattenFromMembers(root, a, k + 1, expanded, b);
      if IsPrefix(a + [k], b) {
        assert b[..|a|] == b[..|a| + 1][..|a|];
        assert b[|a|] == (a + [k])[|a|];
      }
      if rhs && b[|a|] == k {
        ChildPrefix(a, b);
      }
    }
  }

  /** The visible list holds exactly the nodes whose ancestors are all expanded. */
  lemma VisibleMembers(root: Node, expanded: set<Addr>, b: Addr)
    ensures b in Flatten(root, [], expanded) <==> Shown(root, b, expanded)
  {
    FlattenMembers(root, [], expanded, b);
  }

  /** The flattened subtree at `a` is in pre-order, and so lists each node once. */
  lemma {:induction false} FlattenOrdered(root: Node, a: Addr, expanded: set<Addr>)
    requires ValidAddr(root, a)
    ensures Ordered(Flatten(At(root, a), a, expanded))
    decreases At(root, a), 1
  {
    var n := At(root, a);
    if a in expanded {
      var rest := FlattenFrom(n, a, 0, expanded);
      FlattenFromOrdered(root, a, 0, expanded);
      forall y | y in rest
        ensures Before(a, y)
      {
        FlattenFromMembers(root, a, 0, expanded, y);
        AncestorBefore(a, y);
      }
      OrderedConcat([a], rest);
    }
  }

  lemma {:induction false} FlattenFromOrdered(root: Node, a: Addr, k: nat, expanded: set<Addr>)
    requires ValidAddr(root, a) && k <= |At(root, a).children|
    ensures Ordered(FlattenFrom(At(root, a), a, k, expanded))
    decreases At(root, a), 0, |At(root, a).children| - k
  {
    var n := At(root, a);
    if k < |n.children| {
      ChildAddr(root, a, k);
      var xs := Flatten(n.children[k], a + [k], expanded);
      var ys := FlattenFrom(n, a, k + 1, expanded);
      FlattenOrdered(root, a + [k], expanded);
      FlattenFromOrdered(root, a, k + 1, expanded);
      forall x, y | x in xs && y in ys
        ensures Before(x, y)
      {
        FlattenMembers(root, a + [k], expanded, x);
        FlattenFromMembers(root, a, k + 1, expanded, y);
        ChildPrefix(a, y);
        BranchBefore(a, k, y[|a|], x, y);
      }
      OrderedConcat(xs, ys);
    }
  }

  /**
   * The visible list starts at the root, lists each node once, in pre-order
   * following the children's order.
   */
  lemma VisibleOrdered(root: Node, expanded: set<Addr>)
    ensures Flatten(root, [], expanded)[0] == []
    ensures Ordered(Flatten(root, [], expanded))
    ensures forall i, j :: 0 <= i < |Flatten(root, [], expanded)| && 0 <= j < |Flatten(root, [], expanded)| && i != j ==>
              Flatten(root, [], expanded)[i] != Flatten(root, [], expanded)[j]
  {
    FlattenOrdered(root, [], expanded);
    OrderedDistinct(Flatten(root, [], expanded));
  }

  /** Every visible entry names a node of the tree. */
  lemma VisibleValid(root: Node, expanded: set<Addr>)
    ensures forall b :: b in Flatten(root, [], expanded) ==> ValidAddr(root, b)
  {
    forall b | b in Flatten(root, [], expanded)
      ensures ValidAddr(root, b)
    {
      VisibleMembers(root, expanded, b);
    }
  }

  /** Expanding a node hides nothing that was visible. */
  lemma ExpandKeepsShown(root: Node, expanded: set<Addr>, b: Addr, x: Addr)
    requires b in Flatten(root, [], expanded)
    ensures b in Flatten(root, [], expanded + {x})
  {
    VisibleMembers(root, expanded, b);
    VisibleMembers(root, expanded + {x}, b);
  }

  /**
   * Collapsing a node hides only nodes strictly below it: a visible node
   * stays visible when `x` is collapsed unless it lies strictly inside the
   * subtree of `x`.
   */
  lemma CollapseKeepsShown(root: Node, expanded: set<Addr>, b: Addr, x: Addr)
    requires b in Flatten(root, [], expanded) && !(IsPrefix(x, b) && b != x)
    ensures b in Flatten(root, [], expanded - {x})
  {
    VisibleMembers(root, expanded, b);
    VisibleMembers(root, expanded - {x}, b);
    forall m | 0 <= m < |b|
      ensures b[..m] in expanded - {x}
    {
      assert |b[..m]| < |b|;
    }
  }

  /** The parent of a visible node is visible. */
  lemma ParentShown(root: Node, expanded: set<Addr>, a: Addr)
    requires a in Flatten(root, [], expanded) && a != []
    ensures Parent(a) in Flatten(root, [], expanded)
  {
    VisibleMembers(root, expanded, a);
    VisibleMembers(root, expanded, Parent(a));
    PrefixAddr(root, a, |a| - 1);
    forall m | 0 <= m < |Parent(a)|
      ensures Parent(a)[..m] in expanded
    {
      assert Parent(a)[..m] == a[..m];
    }
  }
}
